=== FILE: README.md ===
# Cognon neuron and experiment harness in Dafny

This project models the Cognon neuron and its experiment harness. The Cognon is a
binary-threshold neuron whose synapses sit in dendrite compartments and carry
delays. The harness trains such neurons on random words and measures how much they
learn.

- **Words** (`words.dfy`). A `Word` is the list of input synapses that fired, each
  with the delay of its signal. Construction rejects a negative offset. A `WordSet`
  is a batch of words built from random draws, with one learned-delay slot per word,
  all 0.
- **Neurons** (`neuron.dfy`). A `Neuron` holds a table of S0 synapse rows. Each row
  has a strength, a delay below D2 and a compartment below C.
  - `Expose` scans the delay slots `d < D1 + D2` and, within each slot, the
    compartments `c < C`. It fires at the first pair whose summed input strength
    reaches the threshold. The threshold is `H` in training mode and `H*G` otherwise.
  - `Train` exposes the word in training mode. On a firing it raises to `G` the
    synapses that fed the winning pair. Outside training mode it does nothing and
    answers "did not fire".
  - `StartTraining` and `FinishTraining` toggle the mode.
- **Alice** (`alice.dfy`) trains a neuron on a word set: start training, train with
  every word in order, finish training.
- **Bob** (`bob.dfy`) exposes the trained neuron to the training words and to the
  test words. He counts the four outcomes: true/false positives and negatives.
- **Experiment** (`experiment.dfy`) covers the rest of the harness:
  - the synapse count `S0` of a configuration;
  - one trial: a neuron and two word sets from the draws, Alice, Bob, then the
    recognition rate `pL`, the false alarm rate `pF` and the branch of the
    learned-bits formula `L`;
  - the trial-count and test-set-size adjustment of a run;
  - a run: one trial per planned repetition, where any failing trial fails the run.
- **Scenarios** (`scenarios.dfy`) works through the repository's own test cases on
  hand-built synapse tables, as lemmas about concrete values.

Everything is a pure function over immutable datatypes. Source operations that
mutate objects (`train`, `start_training`, the `Bob` counters) return the new
value instead. Two in-place effects are not returned; the section on what is left out lists them.

Errors are values of `Results.Result`:
- `NegativeOffset`: the `ValueError` of `Word`.
- `OffsetOutOfRange`: the numpy `IndexError` when a word names a synapse at or
  beyond S0.
- `DivisionByZero`: the `ZeroDivisionError` of the rate and trial-count
  arithmetic.
- `MathDomain`: the `ValueError` of `math.log` applied to a number that is not
  positive.
- `RecordShape`: the `ValueError` of `np.array` when a result row does not match
  the record type of the array.

Random draws (`random.sample`, `np.random.randint`) are inputs. They are
`WordDraw` for a word and `TrialDraws` for a trial. Validity predicates
(`ValidDraw`, `ValidTrialDraws`) state what the generators deliver: distinct
offsets below the word length, delays and compartments below their bounds, and
at least one compartment and delay slot, where `randint` would otherwise raise.

Points where the model follows the code's exact behaviour:
- The firing test of `expose` is `(training && s >= H) || s >= H*G`
  (`cognon_extended.py:179`). `Neurons.ReachesThreshold` is that test, and its
  contract shows that it means "H while training, H*G otherwise" whenever
  `G >= 1` and `H >= 0`.
- `run_experiment.py:165-168` evaluates `log(pF)` with `pF == 0` when some but
  not all training words are recognised (`0 < pL < 1`) and no test word fires.
  `math.log` raises there, so the model returns `Err(MathDomain)`.
  `Experiment.MetricsByCounts` (in terms of the counts) and
  `Experiment.RunExperimentFails` (for a whole trial) state exactly when that
  happens.
- `run_experiment` passes `cfg.R` as a fifth argument to the four-argument
  `WordSet` constructor, which raises a `TypeError` as written. The model builds
  the word sets with the four arguments the constructor takes.
- The minimum number of learned words is 1, the value after the override at
  `run_experiment.py:112`.

## Model

| member | source | states |
|---|---|---|
| Words.MinOffset | cognon_extended.py:58 | the offset that sorting the pairs puts first: no offset is smaller and it is one of the offsets |
| Words.MakeWord | cognon_extended.py:58-60 | construction fails with NegativeOffset exactly when some offset is negative; otherwise the word keeps every pair, in order |
| Words.WordRoundTrip | cognon_extended.py:58-60 | building a word from its own pairs gives it back, and reading the pairs of a built word gives the input pairs |
| Words.Zip | cognon_extended.py:93 | pairs each offset with its delay and stops at the shorter list, like Python's zip |
| Words.DrawnWord | cognon_extended.py:91-93 | the word built from one draw has one synapse per drawn offset, carrying the drawn delay |
| Words.MakeWordSet | cognon_extended.py:86-93 | num_words words with all delay slots 0; each has num_active synapses with distinct offsets below word_length and delays below num_delays |
| Words.DistinctBelow | cognon_extended.py:91 | distinct offsets below a bound number at most that bound, so `random.sample` cannot draw more synapses than the word length |
| Words.DrawExists | cognon_extended.py:90-92 | a word draw exists exactly when num_active is at most the word length and, if any synapse is drawn, there is a delay slot to draw from |
| Neurons.NewNeuron | cognon_extended.py:132-143 | the parameters as given, every strength 1.0, not training, the drawn delays and compartments, and the neuron invariant Valid |
| Neurons.SlotSumBounds | cognon_extended.py:170-176 | a slot none of the word's synapses falls into sums to 0, and with non-negative strengths every slot sum is at least 0 |
| Neurons.SlotSumAppend | cognon_extended.py:170-176 | the weighted sum over a concatenated list of synapses is the sum of the parts' sums |
| Neurons.ReachesThreshold | cognon_extended.py:179 | in recognition mode the neuron fires exactly when the sum reaches H*G; in training mode with G >= 1 and H >= 0, exactly when it reaches H |
| Neurons.ScanContainers | cognon_extended.py:173-180 | the first compartment from c on that fires in slot d, or none when no compartment in range fires |
| Neurons.ScanDelays | cognon_extended.py:169-183 | the first (slot, compartment) pair from slot d on that fires in scan order, or silence when none fires |
| Neurons.Expose | cognon_extended.py:164-183 | fails with OffsetOutOfRange exactly when an offset is at least S0; a firing is the first firing pair in scan order; silence holds exactly when no pair in range fires |
| Neurons.FirstFiringUnique | cognon_extended.py:169-180 | at most one pair is the first to fire |
| Neurons.ExposeFiresIff | cognon_extended.py:164-183 | Expose fires at (d, c) if and only if (d, c) is the first firing pair |
| Neurons.LastWriteStep | cognon_extended.py:216-217 | appending one synapse to the word changes the last-write mask only at that synapse's offset |
| Neurons.ContributionMask | cognon_extended.py:207-217 | row j is selected exactly when the last word synapse with offset j falls into the winning slot and compartment |
| Neurons.LastWriteDistinct | cognon_extended.py:207-217 | for a word with distinct offsets, the mask selects exactly the word's synapses that fall into the winning slot |
| Neurons.Potentiate | cognon_extended.py:216-219 | the selected rows get strength G; every other strength, every delay and every compartment stays |
| Neurons.Train | cognon_extended.py:199-221 | outside training mode: no change and "not fired"; in training mode it fails exactly when an offset is out of range; it fires exactly when Expose fires; a silent word changes nothing; a firing raises exactly the contributing synapses to G; wiring, mode and the invariant Valid are kept |
| Neurons.TrainDistinct | cognon_extended.py:203-221 | for a word with distinct offsets that fires at (d, c), the strengths raised to G are exactly those of the word's synapses in (d, c) |
| Neurons.TrainMonotone | cognon_extended.py:219 | with G >= 1 a training step never lowers a strength of a valid neuron |
| Neurons.StartTraining | cognon_extended.py:224-227 | the neuron is in training mode and nothing else changed |
| Neurons.FinishTraining | cognon_extended.py:230-236 | the neuron is in recognition mode and nothing else changed |
| Neurons.ModeSwitches | cognon_extended.py:224-236 | each toggle is idempotent and each undoes the other |
| Alice.TrainAll | run_experiment.py:34-35 | outside training mode nothing changes; in training mode it fails exactly when some word is out of range; wiring, mode and Valid are kept and strengths only rise to G |
| Alice.TrainAllSnoc | run_experiment.py:34-35 | training with one more word is one more training step after the others |
| Alice.AliceTrain | run_experiment.py:31-37 | fails exactly when some word is out of range; ends in recognition mode with the same wiring, strengths only raised to G, Valid kept, and the trained table that the training fold produces |
| Alice.AliceMonotone | run_experiment.py:31-37 | with G >= 1 Alice never lowers any strength of a valid neuron |
| Bob.Verdicts | run_experiment.py:51-56 | one verdict per word, true exactly when the neuron fires on it |
| Bob.TallyWords | run_experiment.py:51-56 | fails exactly when some word does not fit; firings plus silences is the number of words, and firings is the number of words the neuron fires on |
| Bob.BobTest | run_experiment.py:49-66 | fails exactly when a word of either set does not fit; true positives plus false negatives is the training-set size, false positives plus true negatives is the test-set size, and the positive counts are the numbers of words the neuron fires on |
| Experiment.Trunc | run_experiment.py:96-98 | Python's int() of a float: truncation toward zero |
| Experiment.DefaultConfig | run_experiment.py:72-98 | the default configuration has 200 synapses and no R, trains on 100 words and leaves the test set size unset |
| Experiment.S0 | run_experiment.py:93-98 | Q*H*C, times R when R is truthy, truncated toward zero |
| Experiment.S0Examples | run_experiment.py:77-98 | the default configuration has 200 synapses, and R = 0 or R = 1 gives the same count as no R |
| Experiment.TrialDrawsExist | cognon_extended.py:139-143 | a trial's draws exist exactly when the configuration's generators return: S0 >= 0, C and D2 at least 1, and, when a word is drawn, D1 at least 1 and num_active at most S0 |
| Experiment.MakeSetup | run_experiment.py:139-144 | defined only on draws that exist, so C and D2 are at least 1 and D1 is at least 1 when a word is drawn; the trial's neuron carries the configuration's H, G, C, D1, D2, unit strengths and the drawn delays and compartments, and is valid and untrained with S0 synapses; the word sets are the drawn words, w and num_test_words of them, all fitting the neuron |
| Experiment.LearnedBits | run_experiment.py:158-168 | each branch of L holds exactly under its condition on pL and pF, and the logarithm's domain error happens exactly when the code takes the logarithm of a non-positive number |
| Experiment.Metrics | run_experiment.py:155-168 | fails with DivisionByZero exactly when w or num_test_words is 0; pL and pF are the true and false positive fractions, in [0, 1] when the counts are; L is the branch LearnedBits selects |
| Experiment.RatesCompare | run_experiment.py:165 | comparing pL > pF is comparing the cross-multiplied counts |
| Experiment.MetricsByCounts | run_experiment.py:155-168 | the branch of L in terms of the counts alone, including that the domain error happens exactly when some but not all training words are recognised and there is no false alarm |
| Experiment.NoBitsWhenNotAbove | run_experiment.py:159-168 | when pF is at least pL, the trial succeeds and L is 0: the L = 0 branch, or at pL = pF = 1 the -w*log2(pF) branch, whose value -w*log2(1) is 0 |
| Experiment.TrialCounts | run_experiment.py:139-152 | Alice's training succeeds on every trial, and Bob's counts add up to both set sizes and count the words the trained neuron fires on |
| Experiment.RunExperiment | run_experiment.py:136-170 | a trial fails with DivisionByZero exactly when w or num_test_words is 0, and otherwise only with MathDomain; pL and pF lie in [0, 1] and are the true and false positive fractions of the trial's counts, and L is the branch they select |
| Experiment.RunExperimentFails | run_experiment.py:155-168 | with training and test words present, a trial fails, with MathDomain, exactly when some but not all training words and no test word fire |
| Experiment.TrialCount | run_experiment.py:110-116 | fails exactly when w is 0; keeps the repetitions when they give at least MinLearnWords words; otherwise the largest count whose words stay within MinLearnWords |
| Experiment.TrialCountCases | run_experiment.py:111-116 | with the minimum of one word, at least one repetition is kept; otherwise one trial is run when w is 1 and none when w is larger |
| Experiment.TestWordCount | run_experiment.py:118-121 | a configured test-set size is kept; otherwise it fails exactly when there are no trials, and is the largest share of MinTestWords per trial |
| Experiment.PlanRun | run_experiment.py:108-121 | fails exactly when w is 0, or when the test-set size is unset and the trial count is 0; only the test-set size of the configuration changes |
| Experiment.Collect | run_experiment.py:125-126 | the outcomes in order, failing exactly when some outcome failed |
| Experiment.Outcomes | run_experiment.py:126 | one outcome per draw, each the result of that draw's trial |
| Experiment.RunTrials | run_experiment.py:123-126 | one row per draw, each the outcome of that trial, failing exactly when some trial fails |
| Experiment.RunConfiguration | run_experiment.py:108-133 | a failed plan fails the run; otherwise the run fails exactly when some planned trial fails, and else yields one row per planned trial, each the result of a trial with the adjusted configuration, with rates in [0, 1] |
| Experiment.RecordFields | run_experiment.py:129-131 | the record type zip(names, types) builds has the first min(number of names, number of types) names as its fields |
| Experiment.StoreRows | run_experiment.py:131 | storing rows fails with RecordShape exactly when there are rows and the record type does not have three fields; otherwise the rows are kept |
| Experiment.StoreRowsAsWritten | run_experiment.py:129-131 | with one type per row, storing fails exactly for one or two rows |
| Experiment.StoreRowsIntended | run_experiment.py:129-131 | with one type per field name, storing keeps every list of rows |
| Experiment.RunConfigurationAsWritten | run_experiment.py:108-133 | the run as written agrees with RunConfiguration, except that it raises when one or two planned trials all succeed |
| Experiment.SingleTrialRunRaises | run_experiment.py:108-133 | with w = 100, num_test_words = 5000 and one repetition, the run as written always raises |
| Experiment.SingleTrialPlan | run_experiment.py:108-121 | one repetition with w = 100 and num_test_words = 5000 plans a single trial with the configuration unchanged |
| Experiment.PlannedRunIsTrials | run_experiment.py:123-133 | once the plan succeeds, the run is exactly the planned trials, joined |
| Experiment.TrialsOfOne | run_experiment.py:125-126 | trials over one draw give that trial's row, or its error |
| Experiment.SingleTrialRunIntended | run_experiment.py:108-133 | with the corrected record type, the same single-trial run yields the trial's row when it succeeds and its error otherwise |
| Scenarios.SumFirstIsSlotSum | cognon_extended.py:176 | summing a slot's strengths by index agrees with the slot sum of the word's prefix |
| Scenarios.NotTrainingSilent | test/test_cognon_extended.py:120-127 | with S0 = 16, H = 4, G = 2 in recognition mode, three unit inputs stay silent |
| Scenarios.NotTrainingFires | test/test_cognon_extended.py:129-133 | eight unit inputs fire at (0, 0) |
| Scenarios.ExposeIndexError | test/test_cognon_extended.py:135-139 | offset 16 raises IndexError on every 16-synapse neuron, whatever its other parameters and drawn delays and compartments |
| Scenarios.ContainersSilent | test/test_cognon_extended.py:141-153 | three inputs in compartment 0 stay below H*G |
| Scenarios.ContainersFireInFirst | test/test_cognon_extended.py:155-159 | six inputs in compartment 0 fire at (0, 0) |
| Scenarios.ContainersFireInSecond | test/test_cognon_extended.py:161-165 | four inputs in compartment 1 fire at (0, 1) |
| Scenarios.ContainersSilentInThird | test/test_cognon_extended.py:167-171 | the two synapses of compartment 2 are too few to fire |
| Scenarios.DelaysSilent | test/test_cognon_extended.py:173-185 | three undelayed inputs stay silent |
| Scenarios.DelaysFireInSlotZero | test/test_cognon_extended.py:187-191 | six undelayed inputs fire at (0, 0) |
| Scenarios.DelaysFireInSlotOne | test/test_cognon_extended.py:193-197 | four inputs delayed by one fire at (1, 0) |
| Scenarios.DelaysSilentWhenSplit | test/test_cognon_extended.py:199-203 | three inputs in slot 0 and three in slot 1 stay silent |
| Scenarios.DelaysFireInSlotTwo | test/test_cognon_extended.py:205-209 | synapse delay 1 plus input delay 1 fires at (2, 0) |
| Scenarios.DelaysSilentAcrossSlots | test/test_cognon_extended.py:211-215 | two inputs in each of slots 1 and 2 stay silent |
| Scenarios.FirstWordFires | test/test_cognon_extended.py:217-223 | in training mode the first training word reaches H in slot (0, 0) |
| Scenarios.TrainFirstWord | test/test_cognon_extended.py:217-223 | training with the first word fires and raises exactly its four synapses |
| Scenarios.SecondWordFires | test/test_cognon_extended.py:217-224 | after the first word, the second word's inputs reach H |
| Scenarios.TrainSecondWord | test/test_cognon_extended.py:217-224 | training with the second word fires and raises its synapses |
| Scenarios.TrainAllSecondWord | test/test_run_experiment.py:45-55 | the training fold over the second word alone ends in the final table |
| Scenarios.TrainAllTwoWords | test/test_run_experiment.py:45-55 | the training fold over both words ends in the final table |
| Scenarios.AliceTrainsTwoWords | test/test_run_experiment.py:45-55 | Alice's session over the two words ends in the expected trained table, in recognition mode |
| Scenarios.TrainedSilentOnD | test/test_cognon_extended.py:227-230 | after training, the first unseen word stays silent |
| Scenarios.TrainedSilentOnE | test/test_cognon_extended.py:228-232 | after training, the second unseen word stays silent |
| Scenarios.TrainedFalseAlarm | test/test_cognon_extended.py:234-236 | after training, an untrained word made of raised synapses fires |
| Scenarios.TrainedRecallsA | test/test_run_experiment.py:73-93 | after training, the first training word fires |
| Scenarios.TrainedRecallsB | test/test_run_experiment.py:73-93 | after training, the second training word fires |
| Scenarios.TallyTrainingWords | test/test_run_experiment.py:92-96 | Bob's tally of the training words: both fire |
| Scenarios.TallyTestWords | test/test_run_experiment.py:92-98 | Bob's tally of the test words: one fires, two stay silent |
| Scenarios.BobCountsTwoWords | test/test_run_experiment.py:73-98 | Bob counts 2 true positives, 0 false negatives, 1 false positive and 2 true negatives |
| Scenarios.MetricsTwoWords | run_experiment.py:155-162 | those counts give pL = 1, pF = 1/3 and the -w*log2(pF) branch of L |

## Findings

| source | as written | input that shows it | evidently intended | confidence | as-written member | corrected member |
|---|---|---|---|---|---|---|
| run_experiment.py:130-131 | `types = [np.float64,] * len(values)` gives one type per trial row, so `zip(names, types)` has only N fields when N < 3 and `np.array` of the 3-tuple rows raises ValueError. In the file as it stands this line is never reached: the five-argument `WordSet` call at run_experiment.py:142-144 raises TypeError in every trial first, and `pool.map` re-raises it. The defect shows once that call takes the constructor's four arguments, as in this model | with the `WordSet` call given four arguments: repetitions = 1, w = 100, num_test_words = 5000 gives N = 1, a one-field record type for a (pL, pF, L) row | `[np.float64,] * len(names)`, three fields for every run | medium, not executed | Experiment.StoreRowsAsWritten, Experiment.RunConfigurationAsWritten, Experiment.SingleTrialRunRaises | Experiment.StoreRowsIntended, Experiment.RunConfiguration, Experiment.SingleTrialRunIntended |

## Left out

- Random number generation: `random.sample` and `np.random.randint` are replaced by draws passed in as inputs. Their distribution is not modelled, only the ranges and distinctness they guarantee.
- Configurations on which the generators raise are excluded by `ValidTrialDraws`, which no draws satisfy for them: a negative S0; a C or D2 of 0, for any S0; a D1 of 0 when the trial has at least one training or test word; more active synapses than synapses when a word is drawn, where `random.sample` raises. `Experiment.TrialDrawsExist` proves that these are exactly the configurations without draws. The code of that era's numpy has `np.random.randint(0, size=n)` raise `ValueError` for every `n`, including `n = 0`, so `Neuron` raises at `cognon_extended.py:142-143` whenever C or D2 is 0, and `WordSet` raises at `cognon_extended.py:92` for each word when D1 is 0. The model states these as preconditions rather than as an error result.
- `multiprocessing.Pool` is modelled as a sequential, order-preserving map. Concurrency and the pool size of 20 are not modelled.
- Experiment.RunConfiguration: returns the rows as a sequence of `Trial` values, not a numpy structured array. It stores them with one type per field name, the corrected record type of "## Findings". The code's record type, which raises for runs of one or two trials, is modelled by `Experiment.RunConfigurationAsWritten`.
- Experiment.RunConfiguration: `run_configuration` writes the adjusted test set size back into the caller's `config` (`run_experiment.py:120-121`). The model does not return the adjusted configuration from the run. `Experiment.PlanRun` computes it, and the run uses it for every trial.
- Alice.AliceTrain: when a word raises `IndexError` part-way through the fold (`run_experiment.py:32-35`), the neuron object is left in training mode with the earlier words' potentiation applied. The model returns only `Err(OffsetOutOfRange)` and not that partially trained neuron. Within a trial this cannot happen, because every drawn word fits the neuron (`Experiment.MakeSetup`).
- Experiment.LearnedBits: the values of the logarithmic branches are not computed. `Bits` records which branch is taken and its arguments. Only the branches `L = w` and `L = 0`, and `-w*log2(pF)` at `pF = 1` (value 0), have exact values (`Bits.Exact`).
- The default arguments of the `Neuron` constructor (`cognon_extended.py:119`: S0 = 200, H = 5.0, G = 2.0, C = 1, D1 = 4, D2 = 7) are not modelled. `Neurons.NewNeuron` takes every parameter explicitly. The scenarios pass the values the tests rely on explicitly: the index-error test's S0 = 16 is the precondition of `Scenarios.ExposeIndexError`, which holds for any values of the other parameters, and the harness defaults through `Experiment.DefaultConfig`.
- Strengths and sums are exact reals. The source's `float32` storage, the `uint16` delay and compartment columns, and Python float rounding in `pL`, `pF` and `S0` are not modelled.
- The `print` warning of `train` outside training mode is not modelled. Only the returned "did not fire" is.
- Neurons.NewNeuron: the numpy table is built from draws. A `C` or `D2` of 0, which makes `randint` raise whatever S0 is, is excluded by its precondition `C >= 1 && D2 >= 1` and is not modelled as an error. `Words.MakeWordSet` likewise requires at least one delay slot when it draws at least one word.
- Experiment.MakeSetup: a configuration on which `Neuron` or `WordSet` raises `ValueError` from `randint` (C or D2 of 0, or D1 of 0 with at least one word) has no draws satisfying `ValidTrialDraws`, so the model gives no trial for it instead of that error. `Experiment.TrialDrawsExist` states exactly which configurations these are.
- Experiment.TrialCount: follows the code's floor division. When there are no repetitions and w is at least 2, the count is 0 trials, fewer than the minimum the comment aims for.
- The `cfg.R` fifth argument to `WordSet` in `run_experiment` is not modelled, because as written it raises a `TypeError`. The word sets are built with the four constructor arguments.
- `Cognon.__call__` is the identity wrapper around `run_experiment`, and is not modelled separately.
- `create_tables.py` and `test/test_cognon_basic.py`, the reporting layer and the basic-neuron tests, are not part of this model.

=== FILE: alice.dfy ===
/**
 The trainer: puts the neuron into training mode, trains it with every word of
 a word set in order, and puts it back into recognition mode.
 */
module Alice {
  import opened Results
  import opened Words
  import opened Neurons

  /** Some word of the list has an offset outside the synapse table. */
  ghost predicate SomeWordOutOfRange(n: Neuron, words: seq<Word>) {
    exists i :: 0 <= i < |words| && !Fits(n, words[i])
  }

  /** Left fold of Train over the words, in order; the first failure aborts the fold. */
  function TrainAll(n: Neuron, words: seq<Word>): (r: Result<Neuron>)
    decreases |words|
    ensures !n.training ==> r == Ok(n)
    ensures n.training ==> (r.Err? <==> SomeWordOutOfRange(n, words))
    ensures r.Err? ==> r.error == OffsetOutOfRange
    ensures r.Ok? ==> SameWiring(n, r.value) && r.value.training == n.training
    ensures r.Ok? ==> OnlyRaisedToG(n, r.value)
    ensures r.Ok? && Valid(n) ==> Valid(r.value)
  {
    if |words| == 0 then Ok(n)
    else
      match Train(n, words[0])
      case Err(e) => Err(e)
      case Ok(step) =>
        var r := TrainAll(step.neuron, words[1..]);
        assert forall i :: 1 <= i < |words| ==> words[i] == words[1..][i - 1];
        r
  }

  /** Training with one more word is one more Train step after training with the others. */
  lemma {:induction false} TrainAllSnoc(n: Neuron, words: seq<Word>, w: Word)
    decreases |words|
    ensures TrainAll(n, words + [w]) ==
              match TrainAll(n, words)
              case Err(e) => Err(e)
              case Ok(m) => (match Train(m, w) case Err(e) => Err(e) case Ok(step) => Ok(step.neuron))
  {
    if |words| == 0 {
      assert words + [w] == [w];
      assert [w][1..] == [];
    } else {
      assert (words + [w])[0] == words[0];
      assert (words + [w])[1..] == words[1..] + [w];
      match Train(n, words[0])
      case Err(e) =>
      case Ok(step) =>
        TrainAllSnoc(step.neuron, words[1..], w);
    }
  }

  /** Alice's training session over a word set. */
  function AliceTrain(n: Neuron, ws: WordSet): (r: Result<Neuron>)
    ensures r.Err? <==> SomeWordOutOfRange(n, ws.words)
    ensures r.Err? ==> r.error == OffsetOutOfRange
    ensures r.Ok? ==> !r.value.training
    ensures r.Ok? ==> SameWiring(n, r.value) && OnlyRaisedToG(n, r.value)
    ensures r.Ok? && Valid(n) ==> Valid(r.value)
    ensures r.Ok? ==> TrainAll(StartTraining(n), ws.words) == Ok(StartTraining(r.value))
  {
    var trained :- TrainAll(StartTraining(n), ws.words);
    Ok(FinishTraining(trained))
  }

  /** With G >= 1, training a valid neuron never lowers any strength. */
  lemma AliceMonotone(n: Neuron, ws: WordSet)
    requires Valid(n) && n.G >= 1.0
    requires AliceTrain(n, ws).Ok?
    ensures forall j :: 0 <= j < n.S0() ==>
              AliceTrain(n, ws).value.synapses[j].strength >= n.synapses[j].strength
  {
  }
}

=== FILE: bob.dfy ===
/**
 The evaluator: presents the trained neuron with the training words (which it
 should recognise) and with unseen test words (which it should not), and counts
 the four outcomes. Only Expose is used, so the neuron is only read.
 */
module Bob {
  import opened Results
  import opened Words
  import opened Neurons

  /**
   trueTrue: trained and fired; trueFalse: trained but silent (false negative);
   falseTrue: not trained but fired (false positive); falseFalse: not trained and silent.
   */
  datatype Counts = Counts(trueTrue: nat, trueFalse: nat, falseTrue: nat, falseFalse: nat)

  /** A count of the words on which the neuron fired and of those on which it stayed silent. */
  datatype Tally = Tally(fired: nat, silent: nat)

  predicate AllFit(n: Neuron, words: seq<Word>) {
    forall i | 0 <= i < |words| :: Fits(n, words[i])
  }

  /** The neuron fires on the word. */
  predicate Recognises(n: Neuron, w: Word)
    requires Fits(n, w)
  {
    Expose(n, w).value.Fired?
  }

  /** Positions at which a list of verdicts holds. */
  ghost function TrueIndices(flags: seq<bool>): set<nat> {
    set i: nat | i < |flags| && flags[i]
  }

  /** Appending one verdict adds its position when it holds, and nothing else. */
  lemma TrueIndicesAppend(flags: seq<bool>, b: bool)
    ensures TrueIndices(flags + [b]) == TrueIndices(flags) + (if b then {|flags|} else {})
  {
    forall i: nat
      ensures i in TrueIndices(flags + [b]) <==> i in TrueIndices(flags) + (if b then {|flags|} else {})
    {
      if i < |flags| {
        assert (flags + [b])[i] == flags[i];
      }
    }
  }

  /** Appending one verdict adds one position exactly when it holds. */
  lemma TrueIndicesSnoc(flags: seq<bool>, b: bool)
    ensures |TrueIndices(flags + [b])| == |TrueIndices(flags)| + (if b then 1 else 0)
  {
    TrueIndicesAppend(flags, b);
    assert |flags| !in TrueIndices(flags);
  }

  /** Whether the neuron fires on each word. */
  function Verdicts(n: Neuron, words: seq<Word>): (v: seq<bool>)
    requires AllFit(n, words)
    ensures |v| == |words|
    ensures forall i :: 0 <= i < |words| ==> (v[i] <==> Recognises(n, words[i]))
  {
    seq(|words|, i requires 0 <= i < |words| => Recognises(n, words[i]))
  }

  /** Positions of the words the neuron fires on. */
  ghost function Recognised(n: Neuron, words: seq<Word>): set<nat>
    requires AllFit(n, words)
  {
    TrueIndices(Verdicts(n, words))
  }

  /** The positions recognised in a list are those of its prefix, plus the last one if it fires. */
  lemma RecognisedSnoc(n: Neuron, words: seq<Word>)
    requires |words| > 0 && AllFit(n, words)
    ensures AllFit(n, words[..|words| - 1])
    ensures |Recognised(n, words)| ==
              |Recognised(n, words[..|words| - 1])| + (if Recognises(n, words[|words| - 1]) then 1 else 0)
  {
    var m := |words| - 1;
    var prefix := words[..m];
    assert forall i :: 0 <= i < m ==> prefix[i] == words[i];
    var last := Recognises(n, words[m]);
    assert Verdicts(n, words) == Verdicts(n, prefix) + [last];
    TrueIndicesSnoc(Verdicts(n, prefix), last);
  }

  /** Presents every word in order and counts firings and silences. */
  function TallyWords(n: Neuron, words: seq<Word>): (r: Result<Tally>)
    ensures r.Err? <==> !AllFit(n, words)
    ensures r.Err? ==> r.error == OffsetOutOfRange
    ensures r.Ok? ==> r.value.fired + r.value.silent == |words|
    ensures r.Ok? ==> r.value.fired == |Recognised(n, words)|
  {
    if |words| == 0 then Ok(Tally(0, 0))
    else
      var m := |words| - 1;
      assert forall i :: 0 <= i < m ==> words[..m][i] == words[i];
      match TallyWords(n, words[..m])
      case Err(e) => Err(e)
      case Ok(t) =>
        match Expose(n, words[m])
        case Err(e) => Err(e)
        case Ok(f) =>
          RecognisedSnoc(n, words);
          if f.Fired? then Ok(Tally(t.fired + 1, t.silent)) else Ok(Tally(t.fired, t.silent + 1))
  }

  /** Bob's test: the training words first, then the test words. */
  function BobTest(n: Neuron, train: WordSet, test: WordSet): (r: Result<Counts>)
    ensures r.Err? <==> !AllFit(n, train.words) || !AllFit(n, test.words)
    ensures r.Err? ==> r.error == OffsetOutOfRange
    ensures r.Ok? ==> r.value.trueTrue + r.value.trueFalse == |train.words|
    ensures r.Ok? ==> r.value.falseTrue + r.value.falseFalse == |test.words|
    ensures r.Ok? ==> r.value.trueTrue == |Recognised(n, train.words)|
    ensures r.Ok? ==> r.value.falseTrue == |Recognised(n, test.words)|
  {
    var a :- TallyWords(n, train.words);
    var b :- TallyWords(n, test.words);
    Ok(Counts(a.fired, a.silent, b.fired, b.silent))
  }
}

=== FILE: experiment.dfy ===
/**
 The experiment harness: a configuration derives the neuron's synapse count; one
 trial builds a neuron and two word sets from the random draws, lets Alice train
 and Bob test, and turns Bob's counts into the recognition rate pL, the false
 alarm rate pF and the learned-bits estimate L; a run repeats trials.
 */
module Experiment {
  import opened Results
  import opened Words
  import opened Neurons
  import opened Alice
  import opened Bob

  /** Minimum number of training presentations per run (the value in force after its override). */
  const MinLearnWords: nat := 1

  /** Number of test presentations per run aimed at when no test set size is configured. */
  const MinTestWords: nat := 1000000

  /**
   Free parameters of an experiment. R is optional (None in the default configuration);
   numTestWords == 0 means "not configured".
   */
  datatype Config = Config(C: nat, D1: nat, D2: nat, Q: real, G: real, H: real,
                           numActive: nat, R: Option<real>, w: nat, numTestWords: nat)

  /**
   The default configuration of the harness: a neuron of 200 synapses without R,
   trained on 100 words, with the test set size left for the run to choose.
   */
  function DefaultConfig(): (c: Config)
    ensures S0(c) == 200 && !Truthy(c.R)
    ensures c.w == 100 && c.numTestWords == 0
  {
    Config(1, 4, 7, 40.0, 2.0, 5.0, 4, None, 100, 0)
  }

  /** r is x truncated toward zero, as Python's int() does to a float. */
  predicate TruncatesTo(x: real, r: int) {
    if x >= 0.0 then r as real <= x < r as real + 1.0 else r as real - 1.0 < x <= r as real
  }

  function Trunc(x: real): (r: int)
    ensures TruncatesTo(x, r)
  {
    if x >= 0.0 then x.Floor else -((-x).Floor)
  }

  /** Python truthiness of the optional R: absent and zero are both false. */
  predicate Truthy(R: Option<real>) {
    R.Some? && R.value != 0.0
  }

  /** Number of synapses: Q*H*C, times R when R is set, truncated. */
  function S0(cfg: Config): (s: int)
    ensures Truthy(cfg.R) ==> TruncatesTo(cfg.Q * cfg.H * cfg.C as real * cfg.R.value, s)
    ensures !Truthy(cfg.R) ==> TruncatesTo(cfg.Q * cfg.H * cfg.C as real, s)
  {
    if Truthy(cfg.R) then Trunc(cfg.Q * cfg.H * cfg.C as real * cfg.R.value)
    else Trunc(cfg.Q * cfg.H * cfg.C as real)
  }

  /** The default configuration has 200 synapses, and a zero R is ignored like an absent one. */
  lemma S0Examples(cfg: Config)
    ensures S0(DefaultConfig()) == 200
    ensures S0(cfg.(R := Some(0.0))) == S0(cfg.(R := None))
    ensures S0(cfg.(R := Some(1.0))) == S0(cfg.(R := None))
  {
    var x := cfg.Q * cfg.H * cfg.C as real;
    assert x * 1.0 == x;
  }

  /** The random draws of one trial: the neuron's synapse delays and compartments, and each word's draws. */
  datatype TrialDraws = TrialDraws(synapseDelays: seq<nat>, synapseContainers: seq<nat>,
                                   train: seq<WordDraw>, test: seq<WordDraw>)

  /** The draws are what the generators deliver for this configuration. */
  predicate ValidTrialDraws(cfg: Config, t: TrialDraws) {
    var s0 := S0(cfg);
    && s0 >= 0
    && cfg.C >= 1 && cfg.D2 >= 1
    && (cfg.w + cfg.numTestWords > 0 ==> cfg.D1 >= 1)
    && |t.synapseDelays| == s0 && |t.synapseContainers| == s0
    && (forall j :: 0 <= j < s0 ==> t.synapseDelays[j] < cfg.D2 && t.synapseContainers[j] < cfg.C)
    && |t.train| == cfg.w
    && (forall i :: 0 <= i < cfg.w ==> ValidDraw(t.train[i], s0 as nat, cfg.D1, cfg.numActive))
    && |t.test| == cfg.numTestWords
    && (forall i :: 0 <= i < cfg.numTestWords ==> ValidDraw(t.test[i], s0 as nat, cfg.D1, cfg.numActive))
  }

  /**
   The configurations on which Neuron and the two WordSet calls return instead
   of raising: np.zeros needs S0 >= 0; randint(C) and randint(D2) need C and D2
   of at least 1 whatever S0 is; and when a word is drawn, random.sample needs
   numActive <= S0 and randint(D1) needs D1 >= 1.
   */
  predicate GeneratorsSucceed(cfg: Config) {
    && S0(cfg) >= 0
    && cfg.C >= 1 && cfg.D2 >= 1
    && (cfg.w + cfg.numTestWords > 0 ==> cfg.D1 >= 1 && cfg.numActive <= S0(cfg))
  }

  /** A trial has draws exactly when its configuration's generators succeed. */
  lemma TrialDrawsExist(cfg: Config)
    ensures (exists t :: ValidTrialDraws(cfg, t)) <==> GeneratorsSucceed(cfg)
  {
    var s0 := S0(cfg);
    if t :| ValidTrialDraws(cfg, t) {
      if cfg.w > 0 {
        DistinctBelow(t.train[0].offsets, s0 as nat);
      } else if cfg.numTestWords > 0 {
        DistinctBelow(t.test[0].offsets, s0 as nat);
      }
    }
    if GeneratorsSucceed(cfg) {
      var d := WordDraw(seq(cfg.numActive, k => k), seq(cfg.numActive, _ => 0));
      assert cfg.w + cfg.numTestWords > 0 ==> ValidDraw(d, s0 as nat, cfg.D1, cfg.numActive);
      var t := TrialDraws(seq(s0, _ => 0), seq(s0, _ => 0), seq(cfg.w, _ => d), seq(cfg.numTestWords, _ => d));
      assert ValidTrialDraws(cfg, t);
    }
  }

  /** The fresh neuron and the two word sets of one trial. */
  datatype Setup = Setup(neuron: Neuron, train: WordSet, test: WordSet)

  /**
   Builds the trial's neuron and word sets. Both word sets are drawn over the
   neuron's own synapse range, so every word fits the neuron.
   */
  function MakeSetup(cfg: Config, t: TrialDraws): (s: Setup)
    requires ValidTrialDraws(cfg, t)
    ensures Valid(s.neuron) && !s.neuron.training && s.neuron.S0() == S0(cfg)
    ensures |s.train.words| == cfg.w && |s.test.words| == cfg.numTestWords
    ensures AllFit(s.neuron, s.train.words) && AllFit(s.neuron, s.test.words)
    ensures && s.neuron.H == cfg.H && s.neuron.G == cfg.G && s.neuron.C == cfg.C
            && s.neuron.D1 == cfg.D1 && s.neuron.D2 == cfg.D2
    ensures forall j :: 0 <= j < s.neuron.S0() ==>
              s.neuron.synapses[j] == SynapseState(1.0, t.synapseDelays[j], t.synapseContainers[j])
    ensures forall i :: 0 <= i < cfg.w ==> s.train.words[i] == DrawnWord(t.train[i])
    ensures forall i :: 0 <= i < cfg.numTestWords ==> s.test.words[i] == DrawnWord(t.test[i])
  {
    var s0 := S0(cfg) as nat;
    var neuron := NewNeuron(s0, cfg.H, cfg.G, cfg.C, cfg.D1, cfg.D2, t.synapseDelays, t.synapseContainers);
    var train := MakeWordSet(cfg.w, s0, cfg.D1, cfg.numActive, t.train);
    var test := MakeWordSet(cfg.numTestWords, s0, cfg.D1, cfg.numActive, t.test);
    assert forall i :: 0 <= i < cfg.w ==> WellShaped(train.words[i], s0, cfg.D1, cfg.numActive);
    assert forall i :: 0 <= i < cfg.numTestWords ==> WellShaped(test.words[i], s0, cfg.D1, cfg.numActive);
    Setup(neuron, train, test)
  }

  /**
   The learned-bits estimate, by branch. AllWords: L = w. FalseAlarmBound:
   L = -w*log2(pF). ChannelCapacity: the binary asymmetric channel formula in
   pL and pF. NoBits: L = 0. The logarithms are not evaluated, except that
   -w*log2(1) is 0.
   */
  datatype Bits =
    | AllWords(w: nat)
    | FalseAlarmBound(w: nat, pF: real)
    | ChannelCapacity(w: nat, pL: real, pF: real)
    | NoBits
  {
    /** The value of L where it needs no logarithm, or only the logarithm of 1. */
    function Exact(): Option<real> {
      match this
      case AllWords(w) => Some(w as real)
      case FalseAlarmBound(_, pF) => if pF == 1.0 then Some(0.0) else None
      case NoBits => Some(0.0)
      case _ => None
    }
  }

  /** One trial's result row. */
  datatype Trial = Trial(pL: real, pF: real, L: Bits)

  /**
   Selects the branch of L from pL and pF; a logarithm of a non-positive
   number raises, which happens in the channel branch when pF is 0.
   */
  function LearnedBits(w: nat, pL: real, pF: real): (r: Result<Bits>)
    ensures r == Ok(AllWords(w)) <==> pL == 1.0 && pF == 0.0
    ensures r == Ok(FalseAlarmBound(w, pF)) <==> pL == 1.0 && pF > 0.0
    ensures r == Ok(ChannelCapacity(w, pL, pF)) <==> pL < 1.0 && 0.0 < pF < pL
    ensures r == Ok(NoBits) <==> pL != 1.0 && pL <= pF
    ensures r.Err? <==> (pL == 1.0 && pF < 0.0) || (pL != 1.0 && pF < pL && (pF <= 0.0 || pL > 1.0))
    ensures r.Err? ==> r.error == MathDomain
  {
    if pL == 1.0 then
      if pF != 0.0 then (if pF < 0.0 then Err(MathDomain) else Ok(FalseAlarmBound(w, pF)))
      else Ok(AllWords(w))
    else if pL > pF then
      if 0.0 < pF && pL < 1.0 then Ok(ChannelCapacity(w, pL, pF)) else Err(MathDomain)
    else Ok(NoBits)
  }

  /** p is the fraction k out of n. */
  predicate IsRate(p: real, k: nat, n: nat) {
    p * n as real == k as real
  }

  /** pL and pF from Bob's counts, and L from them. */
  function Metrics(c: Counts, w: nat, numTest: nat): (r: Result<Trial>)
    ensures (r.Err? && r.error == DivisionByZero) <==> w == 0 || numTest == 0
    ensures r.Err? ==> r.error == DivisionByZero || r.error == MathDomain
    ensures r.Ok? ==> IsRate(r.value.pL, c.trueTrue, w)
    ensures r.Ok? ==> IsRate(r.value.pF, c.falseTrue, numTest)
    ensures r.Ok? && c.trueTrue <= w ==> 0.0 <= r.value.pL <= 1.0
    ensures r.Ok? && c.falseTrue <= numTest ==> 0.0 <= r.value.pF <= 1.0
    ensures r.Ok? ==> LearnedBits(w, r.value.pL, r.value.pF) == Ok(r.value.L)
  {
    if w == 0 || numTest == 0 then Err(DivisionByZero)
    else
      var pL := c.trueTrue as real / w as real;
      var pF := c.falseTrue as real / numTest as real;
      RateFacts(c.trueTrue, w);
      RateFacts(c.falseTrue, numTest);
      match LearnedBits(w, pL, pF)
      case Err(e) => Err(e)
      case Ok(b) => Ok(Trial(pL, pF, b))
  }

  /** A rate k/n of a count k out of n > 0. */
  lemma RateFacts(k: nat, n: nat)
    requires n > 0
    ensures var p := k as real / n as real;
            && p * n as real == k as real
            && 0.0 <= p
            && (p == 0.0 <==> k == 0)
            && (p == 1.0 <==> k == n)
            && (p < 1.0 <==> k < n)
            && (p <= 1.0 <==> k <= n)
  {
    var p := k as real / n as real;
    assert p * n as real == k as real;
    assert (1.0 - p) * n as real == (n - k) as real;
  }

  /** pL > pF compares the counts cross-multiplied. */
  lemma RatesCompare(tt: nat, ft: nat, w: nat, numTest: nat)
    requires w > 0 && numTest > 0
    ensures (tt as real / w as real > ft as real / numTest as real) <==> tt * numTest > ft * w
  {
    var pL := tt as real / w as real;
    var pF := ft as real / numTest as real;
    var k := (w * numTest) as real;
    assert k > 0.0;
    assert pL * k == (tt * numTest) as real;
    assert pF * k == (ft * w) as real;
    assert pL > pF <==> pL * k > pF * k;
  }

  /**
   The branch of L in terms of the counts: all training words recognised and no
   false alarm gives L = w; all recognised with false alarms gives the
   -w*log2(pF) branch; the channel branch needs a recognition rate above the
   false alarm rate; otherwise L = 0, except that some but not all training
   words recognised with no false alarm raises a math domain error.
   */
  lemma {:induction false} MetricsByCounts(c: Counts, w: nat, numTest: nat)
    requires w > 0 && numTest > 0
    requires c.trueTrue <= w && c.falseTrue <= numTest
    ensures var r := Metrics(c, w, numTest);
            && (r.Ok? && r.value.L == AllWords(w) <==> c.trueTrue == w && c.falseTrue == 0)
            && (r.Ok? && r.value.L.FalseAlarmBound? <==> c.trueTrue == w && c.falseTrue > 0)
            && (r.Ok? && r.value.L.ChannelCapacity? <==>
                  c.trueTrue < w && c.falseTrue > 0 && c.trueTrue * numTest > c.falseTrue * w)
            && (r.Ok? && r.value.L == NoBits <==> c.trueTrue < w && c.trueTrue * numTest <= c.falseTrue * w)
            && (r.Err? <==> 0 < c.trueTrue < w && c.falseTrue == 0)
  {
    var tt, ft := c.trueTrue, c.falseTrue;
    RateFacts(tt, w);
    RateFacts(ft, numTest);
    RatesCompare(tt, ft, w, numTest);
    var pL := tt as real / w as real;
    var pF := ft as real / numTest as real;
    assert Metrics(c, w, numTest) == (match LearnedBits(w, pL, pF)
                                      case Err(e) => Err(e)
                                      case Ok(b) => Ok(Trial(pL, pF, b)));
  }

  /**
   When the false alarm rate is at least the recognition rate, L is 0. With
   pL = pF = 1 the code takes the -w*log2(pF) branch, whose value -w*log2(1)
   is 0 as well.
   */
  lemma NoBitsWhenNotAbove(c: Counts, w: nat, numTest: nat)
    requires w > 0 && numTest > 0
    requires c.trueTrue <= w && c.falseTrue <= numTest
    requires c.trueTrue * numTest <= c.falseTrue * w
    ensures Metrics(c, w, numTest).Ok?
    ensures Metrics(c, w, numTest).value.L == NoBits
            || (c.trueTrue == w && c.falseTrue == numTest && Metrics(c, w, numTest).value.L == FalseAlarmBound(w, 1.0))
    ensures Metrics(c, w, numTest).value.L.Exact() == Some(0.0)
  {
    MetricsByCounts(c, w, numTest);
    if c.trueTrue == w {
      MulMonotone(c.falseTrue, numTest, w);
      RateFacts(c.falseTrue, numTest);
    }
  }

  /** Multiplying by a positive number keeps a strict order. */
  lemma MulMonotone(a: nat, b: nat, k: nat)
    requires k > 0
    ensures a < b ==> a * k < b * k
  {
  }

  /** The counts Bob reports for one trial, after Alice has trained the trial's neuron. */
  function TrialCounts(cfg: Config, t: TrialDraws): (c: Counts)
    requires ValidTrialDraws(cfg, t)
    ensures c.trueTrue + c.trueFalse == cfg.w
    ensures c.falseTrue + c.falseFalse == cfg.numTestWords
    ensures var s := MakeSetup(cfg, t);
            && AliceTrain(s.neuron, s.train).Ok?
            && var trained := AliceTrain(s.neuron, s.train).value;
            && c.trueTrue == |Recognised(trained, s.train.words)|
            && c.falseTrue == |Recognised(trained, s.test.words)|
  {
    var s := MakeSetup(cfg, t);
    assert !SomeWordOutOfRange(s.neuron, s.train.words);
    var trained := AliceTrain(s.neuron, s.train).value;
    assert AllFit(trained, s.train.words) && AllFit(trained, s.test.words);
    BobTest(trained, s.train, s.test).value
  }

  /**
   One trial: build the neuron and word sets, train with Alice, test with Bob,
   and compute (pL, pF, L). Because every word fits the neuron, the only
   failures are a division by zero (no training or no test words) and the
   logarithm of a zero false alarm rate, which is taken when some but not all
   training words are recognised and no test word is.
   */
  function RunExperiment(cfg: Config, t: TrialDraws): (r: Result<Trial>)
    requires ValidTrialDraws(cfg, t)
    ensures (r.Err? && r.error == DivisionByZero) <==> cfg.w == 0 || cfg.numTestWords == 0
    ensures r.Err? ==> r.error == DivisionByZero || r.error == MathDomain
    ensures r.Ok? ==> 0.0 <= r.value.pL <= 1.0 && 0.0 <= r.value.pF <= 1.0
    ensures r.Ok? ==> IsRate(r.value.pL, TrialCounts(cfg, t).trueTrue, cfg.w)
    ensures r.Ok? ==> IsRate(r.value.pF, TrialCounts(cfg, t).falseTrue, cfg.numTestWords)
    ensures r.Ok? ==> LearnedBits(cfg.w, r.value.pL, r.value.pF) == Ok(r.value.L)
  {
    Metrics(TrialCounts(cfg, t), cfg.w, cfg.numTestWords)
  }

  /**
   With training and test words present, a trial fails exactly when some but
   not all training words are recognised and no test word fires: the one case
   in which the code takes the logarithm of a zero false alarm rate.
   */
  lemma RunExperimentFails(cfg: Config, t: TrialDraws)
    requires ValidTrialDraws(cfg, t)
    requires cfg.w > 0 && cfg.numTestWords > 0
    ensures RunExperiment(cfg, t).Err? <==>
              0 < TrialCounts(cfg, t).trueTrue < cfg.w && TrialCounts(cfg, t).falseTrue == 0
    ensures RunExperiment(cfg, t).Err? ==> RunExperiment(cfg, t).error == MathDomain
  {
    MetricsByCounts(TrialCounts(cfg, t), cfg.w, cfg.numTestWords);
  }

  /** Sign facts about a product with a natural factor. */
  lemma MulSign(a: int, b: nat)
    ensures a <= 0 ==> a * b <= 0
    ensures a >= 1 ==> a * b >= b
  {
  }

  /** Number of trials: the requested repetitions, or enough to reach MinLearnWords training words. */
  function TrialCount(repetitions: int, w: nat): (r: Result<nat>)
    ensures r.Err? <==> w == 0
    ensures r.Err? ==> r.error == DivisionByZero
    ensures r.Ok? && repetitions * w >= MinLearnWords ==> r.value == repetitions
    ensures r.Ok? && repetitions * w < MinLearnWords ==>
              r.value * w <= MinLearnWords < (r.value + 1) * w
  {
    MulSign(repetitions, w);
    if repetitions * w < MinLearnWords then
      if w == 0 then Err(DivisionByZero) else Ok(MinLearnWords / w)
    else Ok(repetitions)
  }

  /**
   Under the minimum of one training word, the repetitions are kept whenever at
   least one is requested; otherwise a single trial is run when w is 1 and none
   when w exceeds 1.
   */
  lemma TrialCountCases(repetitions: int, w: nat)
    ensures w > 0 && repetitions >= 1 ==> TrialCount(repetitions, w) == Ok(repetitions)
    ensures w > 0 && repetitions <= 0 ==> TrialCount(repetitions, w) == Ok(if w == 1 then 1 else 0)
  {
    MulSign(repetitions, w);
  }

  /** Test set size: the configured one, or MinTestWords shared out over the trials. */
  function TestWordCount(numTestWords: nat, trials: nat): (r: Result<nat>)
    ensures numTestWords != 0 ==> r == Ok(numTestWords)
    ensures numTestWords == 0 ==> (r.Err? <==> trials == 0)
    ensures r.Err? ==> r.error == DivisionByZero
    ensures numTestWords == 0 && r.Ok? ==> r.value * trials <= MinTestWords < (r.value + 1) * trials
  {
    if numTestWords != 0 then Ok(numTestWords)
    else if trials == 0 then Err(DivisionByZero)
    else Ok(MinTestWords / trials)
  }

  /** The number of trials and the configuration they run with. */
  datatype Plan = Plan(trials: nat, cfg: Config)

  /**
   Plans a run: adjusts the trial count and, when unset, the test set size.
   Only the test set size of the configuration may change.
   */
  function PlanRun(cfg: Config, repetitions: int): (r: Result<Plan>)
    ensures r.Err? <==> cfg.w == 0 || (cfg.numTestWords == 0 && repetitions <= 0 && cfg.w >= 2)
    ensures r.Err? ==> r.error == DivisionByZero
    ensures r.Ok? ==> r.value.cfg == cfg.(numTestWords := r.value.cfg.numTestWords)
    ensures r.Ok? ==> TrialCount(repetitions, cfg.w) == Ok(r.value.trials)
    ensures r.Ok? ==> TestWordCount(cfg.numTestWords, r.value.trials) == Ok(r.value.cfg.numTestWords)
  {
    TrialCountCases(repetitions, cfg.w);
    var n :- TrialCount(repetitions, cfg.w);
    var m :- TestWordCount(cfg.numTestWords, n);
    Ok(Plan(n, cfg.(numTestWords := m)))
  }

  /** Joins the trial outcomes, in order; any failed trial fails the whole join. */
  function Collect(outcomes: seq<Result<Trial>>): (r: Result<seq<Trial>>)
    ensures r.Err? <==> exists i :: 0 <= i < |outcomes| && outcomes[i].Err?
    ensures r.Ok? ==> |r.value| == |outcomes|
    ensures r.Ok? ==> forall i :: 0 <= i < |outcomes| ==> outcomes[i] == Ok(r.value[i])
  {
    if |outcomes| == 0 then Ok([])
    else
      var m := |outcomes| - 1;
      assert forall i :: 0 <= i < m ==> outcomes[..m][i] == outcomes[i];
      var rows :- Collect(outcomes[..m]);
      var row :- outcomes[m];
      Ok(rows + [row])
  }

  /** The outcome of one trial per draw, in order. */
  function Outcomes(cfg: Config, draws: seq<TrialDraws>): (o: seq<Result<Trial>>)
    requires forall i :: 0 <= i < |draws| ==> ValidTrialDraws(cfg, draws[i])
    ensures |o| == |draws|
    ensures forall i :: 0 <= i < |draws| ==> o[i] == RunExperiment(cfg, draws[i])
  {
    seq(|draws|, i requires 0 <= i < |draws| => RunExperiment(cfg, draws[i]))
  }

  /** Runs one trial per draw and joins the results. */
  function RunTrials(cfg: Config, draws: seq<TrialDraws>): (r: Result<seq<Trial>>)
    requires forall i :: 0 <= i < |draws| ==> ValidTrialDraws(cfg, draws[i])
    ensures r.Err? <==> exists i :: 0 <= i < |draws| && RunExperiment(cfg, draws[i]).Err?
    ensures r.Ok? ==> |r.value| == |draws|
    ensures r.Ok? ==> forall i :: 0 <= i < |draws| ==> RunExperiment(cfg, draws[i]) == Ok(r.value[i])
  {
    Collect(Outcomes(cfg, draws))
  }

  /** The draws supply one valid trial's worth per planned trial. */
  predicate DrawsFor(cfg: Config, repetitions: int, draws: seq<TrialDraws>) {
    match PlanRun(cfg, repetitions)
    case Err(_) => true
    case Ok(p) => |draws| == p.trials && forall i :: 0 <= i < |draws| ==> ValidTrialDraws(p.cfg, draws[i])
  }

  /** Names of the fields of a result row. */
  const RowNames: seq<string> := ["pL", "pF", "L"]

  /**
   The fields of the record type zip(names, types) builds from the names and a
   list of numTypes types: zip stops at the shorter list.
   */
  function RecordFields(names: seq<string>, numTypes: nat): (f: seq<string>)
    ensures |f| == if numTypes < |names| then numTypes else |names|
    ensures forall i :: 0 <= i < |f| ==> f[i] == names[i]
  {
    if numTypes < |names| then names[..numTypes] else names
  }

  /**
   Stores the rows in an array of the record type with the given fields. Every
   row is a (pL, pF, L) triple, so a non-empty list of rows fits only a record
   type of exactly three fields; any other raises.
   */
  function StoreRows(rows: seq<Trial>, fields: seq<string>): (r: Result<seq<Trial>>)
    ensures r.Err? <==> |rows| > 0 && |fields| != 3
    ensures r.Err? ==> r.error == RecordShape
    ensures r.Ok? ==> r.value == rows
  {
    if |rows| > 0 && |fields| != |RowNames| then Err(RecordShape) else Ok(rows)
  }

  /**
   Storage as the code writes it: one type per row rather than per field, so the
   record type has as many fields as there are rows, up to three.
   */
  function StoreRowsAsWritten(rows: seq<Trial>): (r: Result<seq<Trial>>)
    ensures r.Err? <==> 0 < |rows| < 3
    ensures r.Ok? ==> r.value == rows
  {
    StoreRows(rows, RecordFields(RowNames, |rows|))
  }

  /** Storage with one type per field name: it keeps every list of rows. */
  function StoreRowsIntended(rows: seq<Trial>): (r: Result<seq<Trial>>)
    ensures r == Ok(rows)
  {
    StoreRows(rows, RecordFields(RowNames, |RowNames|))
  }

  /**
   A run of a configuration: one result row per planned trial, each the result
   of one trial with the adjusted configuration, with rates in [0, 1]. The run
   fails when planning fails or when some trial fails. The rows are stored with
   one type per field (StoreRowsIntended).
   */
  function RunConfiguration(cfg: Config, repetitions: int, draws: seq<TrialDraws>): (r: Result<seq<Trial>>)
    requires DrawsFor(cfg, repetitions, draws)
    ensures PlanRun(cfg, repetitions).Err? ==> r == Err(DivisionByZero)
    ensures PlanRun(cfg, repetitions).Ok? ==>
              (r.Err? <==> exists i :: 0 <= i < |draws| && RunExperiment(PlanRun(cfg, repetitions).value.cfg, draws[i]).Err?)
    ensures r.Ok? ==> PlanRun(cfg, repetitions).Ok? && |r.value| == PlanRun(cfg, repetitions).value.trials
    ensures r.Ok? ==> forall i :: 0 <= i < |r.value| ==>
              RunExperiment(PlanRun(cfg, repetitions).value.cfg, draws[i]) == Ok(r.value[i])
    ensures r.Ok? ==> forall i :: 0 <= i < |r.value| ==>
              0.0 <= r.value[i].pL <= 1.0 && 0.0 <= r.value[i].pF <= 1.0
  {
    var p :- PlanRun(cfg, repetitions);
    var rows :- RunTrials(p.cfg, draws);
    StoreRowsIntended(rows)
  }

  /**
   The run as the code writes it: the same trials, stored with the record type
   built from one type per row. It agrees with RunConfiguration except that a
   run of one or two successful trials raises. Like the rest of the model, it
   builds the word sets with the four arguments the WordSet constructor takes;
   with the fifth argument the code passes, every trial raises before the rows
   are stored.
   */
  function RunConfigurationAsWritten(cfg: Config, repetitions: int, draws: seq<TrialDraws>): (r: Result<seq<Trial>>)
    requires DrawsFor(cfg, repetitions, draws)
    ensures RunConfiguration(cfg, repetitions, draws).Err? ==> r == RunConfiguration(cfg, repetitions, draws)
    ensures RunConfiguration(cfg, repetitions, draws).Ok? ==>
              (r.Err? <==> 0 < PlanRun(cfg, repetitions).value.trials < 3)
    ensures r.Ok? ==> r == RunConfiguration(cfg, repetitions, draws)
  {
    var p :- PlanRun(cfg, repetitions);
    var rows :- RunTrials(p.cfg, draws);
    StoreRowsAsWritten(rows)
  }

  /** One repetition of a configuration with 100 training words and 5000 test words plans a single trial. */
  lemma SingleTrialPlan(cfg: Config)
    requires cfg.w == 100 && cfg.numTestWords == 5000
    ensures PlanRun(cfg, 1) == Ok(Plan(1, cfg))
  {
    TrialCountCases(1, cfg.w);
  }

  /**
   Such a run, with its single planned trial, never yields its row with the
   record type as written: it always raises. This assumes the word sets are built
   with four arguments; with the code's fifth argument every trial raises first.
   */
  lemma SingleTrialRunRaises(cfg: Config, draws: seq<TrialDraws>)
    requires cfg.w == 100 && cfg.numTestWords == 5000
    requires DrawsFor(cfg, 1, draws)
    ensures RunConfigurationAsWritten(cfg, 1, draws).Err?
  {
    SingleTrialPlan(cfg);
    assert PlanRun(cfg, 1).value.trials == 1;
  }

  /** Joining a single outcome gives its row, or its error. */
  lemma CollectSingle(o: Result<Trial>)
    ensures Collect([o]) == if o.Ok? then Ok([o.value]) else Err(o.error)
  {
    assert [o][..0] == [];
    assert Collect([]) == Ok([]);
    if o.Ok? {
      assert [] + [o.value] == [o.value];
    }
  }

  /** Once the plan succeeds, the run is exactly the planned trials, joined. */
  lemma PlannedRunIsTrials(cfg: Config, repetitions: int, draws: seq<TrialDraws>)
    requires DrawsFor(cfg, repetitions, draws)
    requires PlanRun(cfg, repetitions).Ok?
    ensures forall i :: 0 <= i < |draws| ==> ValidTrialDraws(PlanRun(cfg, repetitions).value.cfg, draws[i])
    ensures RunConfiguration(cfg, repetitions, draws) == RunTrials(PlanRun(cfg, repetitions).value.cfg, draws)
  {
  }

  /** Trials over a single draw give that trial's row, or its error. */
  lemma TrialsOfOne(cfg: Config, draws: seq<TrialDraws>)
    requires |draws| == 1 && ValidTrialDraws(cfg, draws[0])
    ensures RunTrials(cfg, draws) ==
              if RunExperiment(cfg, draws[0]).Ok? then Ok([RunExperiment(cfg, draws[0]).value])
              else Err(RunExperiment(cfg, draws[0]).error)
  {
    var o := Outcomes(cfg, draws);
    Singleton(o);
    CollectSingle(o[0]);
  }

  /** A sequence of length one is the singleton of its element. */
  lemma Singleton<T>(s: seq<T>)
    requires |s| == 1
    ensures s == [s[0]]
  {
  }

  /** The intended storage yields the single row when the trial succeeds, and its error otherwise. */
  lemma SingleTrialRunIntended(cfg: Config, draws: seq<TrialDraws>)
    requires cfg.w == 100 && cfg.numTestWords == 5000
    requires DrawsFor(cfg, 1, draws)
    ensures |draws| == 1
    ensures RunConfiguration(cfg, 1, draws) ==
              if RunExperiment(cfg, draws[0]).Ok? then Ok([RunExperiment(cfg, draws[0]).value])
              else Err(RunExperiment(cfg, draws[0]).error)
  {
    SingleTrialPlan(cfg);
    PlannedRunIsTrials(cfg, 1, draws);
    TrialsOfOne(cfg, draws);
  }
}

=== FILE: neuron.dfy ===
/**
 The Cognon neuron with dendrite compartments and synaptic delays. A neuron holds
 a table of S0 synapse records (strength, delay, compartment) and a training
 flag. Presenting a word searches the (delay slot, compartment) pairs in
 lexicographic order for the first whose weighted input sum reaches the
 threshold; training raises to G the synapses that produced that firing.
 */
module Neurons {
  import opened Results
  import opened Words

  /** One row of the synapse table. */
  datatype SynapseState = SynapseState(strength: real, delay: nat, container: nat)

  /**
   H is the firing threshold, G the strong/weak strength ratio, C the number of
   compartments, D1 the number of output time slots and D2 the number of
   synaptic delays; the table has S0 rows.
   */
  datatype Neuron = Neuron(H: real, G: real, C: nat, D1: nat, D2: nat,
                           synapses: seq<SynapseState>, training: bool)
  {
    function S0(): nat { |synapses| }

    /** Number of delay slots the search of expose scans. */
    function Slots(): nat { D1 + D2 }
  }

  /** What presenting a word yields: the winning (delay slot, compartment), or no firing. */
  datatype Firing = Fired(delay: nat, container: nat) | Silent

  /** What train yields: whether the neuron fired, and the neuron afterwards. */
  datatype TrainStep = TrainStep(fired: bool, neuron: Neuron)

  /**
   The invariant every neuron keeps: delays below D2, compartments below C, and
   each strength either the initial 1.0 or the potentiated G.
   */
  ghost predicate Valid(n: Neuron) {
    forall j :: 0 <= j < n.S0() ==>
      && n.synapses[j].delay < n.D2
      && n.synapses[j].container < n.C
      && (n.synapses[j].strength == 1.0 || n.synapses[j].strength == n.G)
  }

  /** The parameters and the delay and compartment of every synapse agree. */
  ghost predicate SameWiring(a: Neuron, b: Neuron) {
    && a.H == b.H && a.G == b.G && a.C == b.C && a.D1 == b.D1 && a.D2 == b.D2
    && a.S0() == b.S0()
    && forall j :: 0 <= j < a.S0() ==>
         a.synapses[j].delay == b.synapses[j].delay && a.synapses[j].container == b.synapses[j].container
  }

  /** Every strength of b is either the one of a or the potentiated value G. */
  ghost predicate OnlyRaisedToG(a: Neuron, b: Neuron)
    requires a.S0() == b.S0()
  {
    forall j :: 0 <= j < a.S0() ==>
      b.synapses[j].strength == a.synapses[j].strength || b.synapses[j].strength == a.G
  }

  /** A fresh neuron: every strength 1.0, delays and compartments from the random draws, not training. */
  function NewNeuron(S0: nat, H: real, G: real, C: nat, D1: nat, D2: nat,
                     delays: seq<nat>, containers: seq<nat>): (n: Neuron)
    requires C >= 1 && D2 >= 1
    requires |delays| == S0 && |containers| == S0
    requires forall j :: 0 <= j < S0 ==> delays[j] < D2 && containers[j] < C
    ensures n.S0() == S0 && n.H == H && n.G == G && n.C == C && n.D1 == D1 && n.D2 == D2
    ensures !n.training
    ensures forall j :: 0 <= j < S0 ==> n.synapses[j].strength == 1.0
    ensures forall j :: 0 <= j < S0 ==>
              n.synapses[j].delay == delays[j] && n.synapses[j].container == containers[j]
    ensures Valid(n)
  {
    Neuron(H, G, C, D1, D2,
           seq(S0, j requires 0 <= j < S0 => SynapseState(1.0, delays[j], containers[j])),
           false)
  }

  /** Every offset of the word indexes the synapse table. */
  predicate Fits(n: Neuron, w: Word) {
    forall k | 0 <= k < |w.synapses| :: w.synapses[k].offset < n.S0()
  }

  /** The input synapse s falls into delay slot d of compartment c. */
  predicate InSlot(n: Neuron, s: Synapse, d: nat, c: nat)
    requires s.offset < n.S0()
  {
    n.synapses[s.offset].delay + s.delay == d && n.synapses[s.offset].container == c
  }

  /**
   Sum of the strengths of the listed synapses that fall into slot (d, c): the
   weighted sum expose computes for one compartment in one delay slot.
   */
  function SlotSum(n: Neuron, syns: seq<Synapse>, d: nat, c: nat): real
    requires forall k :: 0 <= k < |syns| ==> syns[k].offset < n.S0()
  {
    if |syns| == 0 then 0.0
    else
      var last := syns[|syns| - 1];
      SlotSum(n, syns[..|syns| - 1], d, c)
        + (if InSlot(n, last, d, c) then n.synapses[last.offset].strength else 0.0)
  }

  /**
   The firing test of expose, as written: H counts only in training mode, H*G
   always. In recognition mode the threshold is H*G; in training mode it is H
   whenever H*G is not the smaller of the two, which holds for G >= 1 and H >= 0.
   */
  function ReachesThreshold(n: Neuron, s: real): (b: bool)
    ensures !n.training ==> (b <==> s >= n.H * n.G)
    ensures n.training && n.G >= 1.0 && n.H >= 0.0 ==> (b <==> s >= n.H)
  {
    assert n.G >= 1.0 && n.H >= 0.0 ==> n.H * n.G - n.H == n.H * (n.G - 1.0) >= 0.0;
    (n.training && s >= n.H) || s >= n.H * n.G
  }

  /**
   A slot that none of the listed synapses falls into sums to 0, and with
   non-negative strengths no slot sums to less than 0.
   */
  lemma {:induction false} SlotSumBounds(n: Neuron, syns: seq<Synapse>, d: nat, c: nat)
    requires forall k :: 0 <= k < |syns| ==> syns[k].offset < n.S0()
    ensures (forall k :: 0 <= k < |syns| ==> !InSlot(n, syns[k], d, c)) ==> SlotSum(n, syns, d, c) == 0.0
    ensures (forall j :: 0 <= j < n.S0() ==> n.synapses[j].strength >= 0.0) ==> SlotSum(n, syns, d, c) >= 0.0
  {
    if |syns| > 0 {
      var m := |syns| - 1;
      assert forall k :: 0 <= k < m ==> syns[..m][k] == syns[k];
      SlotSumBounds(n, syns[..m], d, c);
    }
  }

  /**
   The weighted sum over a concatenation is the sum of the parts' sums, so the
   sum does not depend on how the word's synapses are grouped.
   */
  lemma {:induction false} SlotSumAppend(n: Neuron, a: seq<Synapse>, b: seq<Synapse>, d: nat, c: nat)
    requires forall k :: 0 <= k < |a| ==> a[k].offset < n.S0()
    requires forall k :: 0 <= k < |b| ==> b[k].offset < n.S0()
    ensures forall k :: 0 <= k < |a + b| ==> (a + b)[k].offset < n.S0()
    ensures SlotSum(n, a + b, d, c) == SlotSum(n, a, d, c) + SlotSum(n, b, d, c)
  {
    assert forall k :: 0 <= k < |a + b| ==> (a + b)[k] == if k < |a| then a[k] else b[k - |a|];
    if |b| > 0 {
      var m := |b| - 1;
      assert (a + b)[..|a + b| - 1] == a + b[..m];
      assert (a + b)[|a + b| - 1] == b[m];
      SlotSumAppend(n, a, b[..m], d, c);
    } else {
      assert a + b == a;
    }
  }

  /** Slot (d, c) collects enough strength for the neuron to fire. */
  predicate FiresAt(n: Neuron, w: Word, d: nat, c: nat)
    requires Fits(n, w)
  {
    ReachesThreshold(n, SlotSum(n, w.synapses, d, c))
  }

  /** (d1, c1) comes strictly before (d2, c2) in the scan order of expose. */
  predicate Before(d1: nat, c1: nat, d2: nat, c2: nat) {
    d1 < d2 || (d1 == d2 && c1 < c2)
  }

  /** (d, c) is in range, fires, and no pair scanned before it fires. */
  ghost predicate FirstFiring(n: Neuron, w: Word, d: nat, c: nat)
    requires Fits(n, w)
  {
    && d < n.Slots() && c < n.C
    && FiresAt(n, w, d, c)
    && forall d': nat, c': nat :: c' < n.C && Before(d', c', d, c) ==> !FiresAt(n, w, d', c')
  }

  /** No pair in range fires. */
  ghost predicate NeverFires(n: Neuron, w: Word)
    requires Fits(n, w)
  {
    forall d: nat, c: nat :: d < n.Slots() && c < n.C ==> !FiresAt(n, w, d, c)
  }

  /** The first compartment at or after c that fires in delay slot d. */
  function ScanContainers(n: Neuron, w: Word, d: nat, c: nat): (r: Option<nat>)
    requires Fits(n, w)
    decreases n.C - c
    ensures r.Some? ==> c <= r.value < n.C && FiresAt(n, w, d, r.value)
    ensures r.Some? ==> forall c': nat :: c <= c' < r.value ==> !FiresAt(n, w, d, c')
    ensures r.None? ==> forall c': nat :: c <= c' < n.C ==> !FiresAt(n, w, d, c')
  {
    if c >= n.C then None
    else if FiresAt(n, w, d, c) then Some(c)
    else ScanContainers(n, w, d, c + 1)
  }

  /** The first pair, in scan order, whose delay slot is at or after d and which fires. */
  function ScanDelays(n: Neuron, w: Word, d: nat): (r: Firing)
    requires Fits(n, w)
    decreases n.Slots() - d
    ensures r.Fired? ==> d <= r.delay < n.Slots() && r.container < n.C
    ensures r.Fired? ==> FiresAt(n, w, r.delay, r.container)
    ensures r.Fired? ==> forall d': nat, c': nat ::
              d <= d' && c' < n.C && Before(d', c', r.delay, r.container) ==> !FiresAt(n, w, d', c')
    ensures r.Silent? ==> forall d': nat, c': nat :: d <= d' < n.Slots() && c' < n.C ==> !FiresAt(n, w, d', c')
  {
    if d >= n.Slots() then Silent
    else
      match ScanContainers(n, w, d, 0)
      case Some(c) => Fired(d, c)
      case None => ScanDelays(n, w, d + 1)
  }

  /**
   Presents a word to the neuron. Fails when an offset is outside the table;
   otherwise fires at the first (delay slot, compartment) pair reaching the
   threshold, or stays silent when none does. The neuron is not changed.
   */
  function Expose(n: Neuron, w: Word): (r: Result<Firing>)
    ensures r.Err? <==> !Fits(n, w)
    ensures r.Err? ==> r.error == OffsetOutOfRange
    ensures r.Ok? && r.value.Fired? ==> FirstFiring(n, w, r.value.delay, r.value.container)
    ensures r.Ok? ==> (r.value.Silent? <==> NeverFires(n, w))
  {
    if !Fits(n, w) then Err(OffsetOutOfRange) else Ok(ScanDelays(n, w, 0))
  }

  /** There is at most one first firing pair. */
  lemma FirstFiringUnique(n: Neuron, w: Word, d1: nat, c1: nat, d2: nat, c2: nat)
    requires Fits(n, w)
    requires FirstFiring(n, w, d1, c1) && FirstFiring(n, w, d2, c2)
    ensures d1 == d2 && c1 == c2
  {
  }

  /** Expose fires at (d, c) exactly when (d, c) is the first firing pair. */
  lemma ExposeFiresIff(n: Neuron, w: Word, d: nat, c: nat)
    requires Fits(n, w)
    ensures Expose(n, w) == Ok(Fired(d, c)) <==> FirstFiring(n, w, d, c)
  {
    var r := Expose(n, w);
    if FirstFiring(n, w, d, c) {
      assert !NeverFires(n, w);
      FirstFiringUnique(n, w, d, c, r.value.delay, r.value.container);
    }
  }

  /**
   Synapse j is the target of the last word synapse with offset j, and that
   synapse falls into slot (d, c). This is the mask train assigns: with
   repeated offsets the last assignment wins.
   */
  ghost predicate LastWriteInSlot(n: Neuron, syns: seq<Synapse>, d: nat, c: nat, j: nat)
    requires forall k :: 0 <= k < |syns| ==> syns[k].offset < n.S0()
  {
    exists k :: 0 <= k < |syns| && syns[k].offset == j && InSlot(n, syns[k], d, c)
      && forall k' :: k < k' < |syns| ==> syns[k'].offset != j
  }

  /** Some word synapse with offset j falls into slot (d, c). */
  ghost predicate SomeInSlot(n: Neuron, syns: seq<Synapse>, d: nat, c: nat, j: nat)
    requires forall k :: 0 <= k < |syns| ==> syns[k].offset < n.S0()
  {
    exists k :: 0 <= k < |syns| && syns[k].offset == j && InSlot(n, syns[k], d, c)
  }

  /** Extending the list by one synapse changes the last-write mask at that synapse's offset only. */
  lemma LastWriteStep(n: Neuron, syns: seq<Synapse>, d: nat, c: nat, j: nat)
    requires |syns| > 0
    requires forall k :: 0 <= k < |syns| ==> syns[k].offset < n.S0()
    ensures var last := syns[|syns| - 1];
            LastWriteInSlot(n, syns, d, c, j) <==>
              if j == last.offset then InSlot(n, last, d, c)
              else LastWriteInSlot(n, syns[..|syns| - 1], d, c, j)
  {
    var m := |syns| - 1;
    var prefix := syns[..m];
    if j == syns[m].offset {
      if InSlot(n, syns[m], d, c) {
        assert LastWriteInSlot(n, syns, d, c, j);
      }
    } else {
      if LastWriteInSlot(n, syns, d, c, j) {
        var k :| 0 <= k < |syns| && syns[k].offset == j && InSlot(n, syns[k], d, c)
                 && forall k' :: k < k' < |syns| ==> syns[k'].offset != j;
        assert prefix[k] == syns[k];
        assert forall k' :: k < k' < m ==> prefix[k'] == syns[k'];
      }
      if LastWriteInSlot(n, prefix, d, c, j) {
        var k :| 0 <= k < m && prefix[k].offset == j && InSlot(n, prefix[k], d, c)
                 && forall k' :: k < k' < m ==> prefix[k'].offset != j;
        assert syns[k] == prefix[k];
        assert forall k' :: k < k' < m ==> syns[k'] == prefix[k'];
      }
    }
  }

  /**
   The boolean mask over the synapse table that train builds: position j
   holds whether the last word synapse with offset j falls into slot (d, c).
   */
  function ContributionMask(n: Neuron, syns: seq<Synapse>, d: nat, c: nat): (m: seq<bool>)
    requires forall k :: 0 <= k < |syns| ==> syns[k].offset < n.S0()
    ensures |m| == n.S0()
    ensures forall j :: 0 <= j < |m| ==> (m[j] <==> LastWriteInSlot(n, syns, d, c, j))
  {
    if |syns| == 0 then seq(n.S0(), _ => false)
    else
      var last := syns[|syns| - 1];
      var m := ContributionMask(n, syns[..|syns| - 1], d, c)[last.offset := InSlot(n, last, d, c)];
      assert forall j :: 0 <= j < |m| ==> (m[j] <==> LastWriteInSlot(n, syns, d, c, j)) by {
        forall j | 0 <= j < |m| {
          LastWriteStep(n, syns, d, c, j);
        }
      }
      m
  }

  /** With distinct offsets, the last-write mask is exactly "some word synapse with offset j is in the slot". */
  lemma LastWriteDistinct(n: Neuron, syns: seq<Synapse>, d: nat, c: nat, j: nat)
    requires forall k :: 0 <= k < |syns| ==> syns[k].offset < n.S0()
    requires DistinctOffsets(syns)
    ensures LastWriteInSlot(n, syns, d, c, j) <==> SomeInSlot(n, syns, d, c, j)
  {
    if SomeInSlot(n, syns, d, c, j) {
      var k :| 0 <= k < |syns| && syns[k].offset == j && InSlot(n, syns[k], d, c);
      assert forall k' :: k < k' < |syns| ==> syns[k'].offset != j;
    }
  }

  /** The synapse table after raising to G the rows selected by the mask of slot (d, c). */
  function Potentiate(n: Neuron, w: Word, d: nat, c: nat): (table: seq<SynapseState>)
    requires Fits(n, w)
    ensures |table| == n.S0()
    ensures forall j :: 0 <= j < n.S0() ==>
              && table[j].delay == n.synapses[j].delay
              && table[j].container == n.synapses[j].container
              && table[j].strength == (if LastWriteInSlot(n, w.synapses, d, c, j) then n.G else n.synapses[j].strength)
  {
    var mask := ContributionMask(n, w.synapses, d, c);
    seq(n.S0(), j requires 0 <= j < n.S0() =>
      if mask[j] then n.synapses[j].(strength := n.G) else n.synapses[j])
  }

  /**
   Trains the neuron with one word. Outside training mode nothing happens and
   the answer is "did not fire". In training mode the word is exposed; when it
   fires at (d, c), the synapses that contributed to that firing are raised to G.
   */
  function Train(n: Neuron, w: Word): (r: Result<TrainStep>)
    ensures !n.training ==> r == Ok(TrainStep(false, n))
    ensures n.training ==> (r.Err? <==> !Fits(n, w))
    ensures r.Err? ==> r.error == OffsetOutOfRange
    ensures r.Ok? ==> SameWiring(n, r.value.neuron) && r.value.neuron.training == n.training
    ensures r.Ok? ==> OnlyRaisedToG(n, r.value.neuron)
    ensures r.Ok? && Valid(n) ==> Valid(r.value.neuron)
    ensures n.training && Fits(n, w) ==> r.Ok? && (r.value.fired <==> Expose(n, w).value.Fired?)
    ensures n.training && Fits(n, w) && Expose(n, w).value.Silent? ==> r.value.neuron == n
    ensures n.training && Fits(n, w) && Expose(n, w).value.Fired? ==>
              var f := Expose(n, w).value;
              forall j :: 0 <= j < n.S0() ==>
                r.value.neuron.synapses[j].strength ==
                  (if LastWriteInSlot(n, w.synapses, f.delay, f.container, j) then n.G else n.synapses[j].strength)
  {
    if !n.training then Ok(TrainStep(false, n))
    else
      var f :- Expose(n, w);
      if f.Silent? then Ok(TrainStep(false, n))
      else Ok(TrainStep(true, n.(synapses := Potentiate(n, w, f.delay, f.container))))
  }

  /**
   For a word with distinct offsets, a training step that fires at (d, c) sets to
   G exactly the synapses of the word that fall into (d, c); all other strengths stay.
   */
  lemma TrainDistinct(n: Neuron, w: Word, d: nat, c: nat)
    requires n.training && Fits(n, w) && DistinctOffsets(w.synapses)
    requires Expose(n, w) == Ok(Fired(d, c))
    ensures Train(n, w).Ok? && Train(n, w).value.fired
    ensures forall j :: 0 <= j < n.S0() ==>
              Train(n, w).value.neuron.synapses[j].strength ==
                (if SomeInSlot(n, w.synapses, d, c, j) then n.G else n.synapses[j].strength)
  {
    forall j | 0 <= j < n.S0() {
      LastWriteDistinct(n, w.synapses, d, c, j);
    }
  }

  /** With G >= 1, training never lowers a strength of a valid neuron. */
  lemma TrainMonotone(n: Neuron, w: Word)
    requires Valid(n) && n.G >= 1.0
    requires Train(n, w).Ok?
    ensures forall j :: 0 <= j < n.S0() ==>
              Train(n, w).value.neuron.synapses[j].strength >= n.synapses[j].strength
  {
  }

  /** Enters training mode; nothing else changes. */
  function StartTraining(n: Neuron): (r: Neuron)
    ensures r.training
    ensures SameWiring(n, r) && r.synapses == n.synapses
  {
    n.(training := true)
  }

  /** Leaves training mode; nothing else changes. */
  function FinishTraining(n: Neuron): (r: Neuron)
    ensures !r.training
    ensures SameWiring(n, r) && r.synapses == n.synapses
  {
    n.(training := false)
  }

  /** Both mode switches are idempotent, and each undoes the other. */
  lemma ModeSwitches(n: Neuron)
    ensures StartTraining(StartTraining(n)) == StartTraining(n)
    ensures FinishTraining(FinishTraining(n)) == FinishTraining(n)
    ensures !n.training ==> FinishTraining(StartTraining(n)) == n
    ensures n.training ==> StartTraining(FinishTraining(n)) == n
  {
  }
}

=== FILE: results.dfy ===
/**
 Outcome types shared by the whole model: an optional value, and the result of an
 operation that either produces a value or raises one of the exceptions the
 Cognon code can raise.
 */
module Results {

  datatype Option<+T> = None | Some(value: T)

  /** The exceptions of the modelled code, named after their cause. */
  datatype Error =
    | NegativeOffset    // ValueError raised while constructing a Word
    | OffsetOutOfRange  // IndexError raised when a word is gathered from the synapse table
    | DivisionByZero    // ZeroDivisionError raised by the experiment's rates and trial counts
    | MathDomain        // ValueError raised by math.log on a non-positive argument
    | RecordShape       // ValueError raised by np.array when a row does not match the record type

  /** A value, or the exception raised instead; `:-` propagates the exception like Python does. */
  datatype Result<+T> = Ok(value: T) | Err(error: Error) {
    predicate IsFailure() {
      Err?
    }

    function PropagateFailure<U>(): Result<U>
      requires Err?
    {
      Err(error)
    }

    function Extract(): T
      requires Ok?
    {
      value
    }
  }
}

=== FILE: scenarios.dfy ===
/**
 Concrete runs of the neuron, Alice and Bob on small hand-built examples.
 Every synapse table is written out, so the random draws play no part.
 */
module Scenarios {
  import opened Results
  import opened Words
  import opened Neurons
  import opened Alice
  import opened Bob
  import opened Experiment

  /** A word whose synapses all carry delay 0. */
  function Undelayed(offsets: seq<nat>): (w: Word)
    ensures |w.synapses| == |offsets|
    ensures forall k :: 0 <= k < |offsets| ==> w.synapses[k] == Synapse(offsets[k], 0)
  {
    Word(seq(|offsets|, k requires 0 <= k < |offsets| => Synapse(offsets[k], 0)))
  }

  /** Sixteen synapses in slot (0, 0): strength G = 2.0 at the strong offsets, 1.0 elsewhere. */
  function Strengths(strong: set<nat>): (t: seq<SynapseState>)
    ensures |t| == 16
  {
    seq(16, j => SynapseState(if j in strong then 2.0 else 1.0, 0, 0))
  }

  /** Sixteen fresh synapses, all with delay 0 and compartment 0. */
  function Plain16(): seq<SynapseState> {
    Strengths({})
  }

  /** The small neuron of the training example: S0 = 16, H = 4, G = 2, one compartment, one delay. */
  function Small(): Neuron {
    Neuron(4.0, 2.0, 1, 1, 1, Plain16(), false)
  }

  /** The slot sum over the first k synapses of the list, indexing instead of slicing. */
  function SumFirst(n: Neuron, syns: seq<Synapse>, d: nat, c: nat, k: nat): real
    requires k <= |syns|
    requires forall i :: 0 <= i < |syns| ==> syns[i].offset < n.S0()
  {
    if k == 0 then 0.0
    else SumFirst(n, syns, d, c, k - 1)
           + (if InSlot(n, syns[k - 1], d, c) then n.synapses[syns[k - 1].offset].strength else 0.0)
  }

  /** Indexing the first k synapses gives the slot sum of the k-prefix. */
  lemma {:induction false} SumFirstIsSlotSum(n: Neuron, syns: seq<Synapse>, d: nat, c: nat, k: nat)
    requires k <= |syns|
    requires forall i :: 0 <= i < |syns| ==> syns[i].offset < n.S0()
    ensures SumFirst(n, syns, d, c, k) == SlotSum(n, syns[..k], d, c)
  {
    if k > 0 {
      SumFirstIsSlotSum(n, syns, d, c, k - 1);
      assert syns[..k][..k - 1] == syns[..k - 1];
    }
  }

  /** One slot sum of a word, computed by indexing its synapses. */
  lemma SlotSumAt(n: Neuron, w: Word, d: nat, c: nat)
    requires Fits(n, w)
    ensures SlotSum(n, w.synapses, d, c) == SumFirst(n, w.synapses, d, c, |w.synapses|)
  {
    assert w.synapses[..|w.synapses|] == w.synapses;
    SumFirstIsSlotSum(n, w.synapses, d, c, |w.synapses|);
  }

  /** In recognition mode the threshold is H*G = 8: three unit inputs stay silent. */
  lemma NotTrainingSilent()
    ensures Expose(Small(), Undelayed([1, 6, 9])) == Ok(Silent)
  {
    var n := Small();
    var w := Word([Synapse(1, 0), Synapse(6, 0), Synapse(9, 0)]);
    assert Undelayed([1, 6, 9]) == w;
    assert |n.synapses| == 16;
    assert Fits(n, w);
    SlotSumAt(n, w, 0, 0);
    assert SumFirst(n, w.synapses, 0, 0, 3) == 3.0;
    SlotSumAt(n, w, 1, 0);
    assert SumFirst(n, w.synapses, 1, 0, 3) == 0.0;
  }

  /** Eight unit inputs reach H*G = 8 in the only slot. */
  lemma NotTrainingFires()
    ensures Expose(Small(), Undelayed([1, 3, 4, 5, 6, 8, 9, 14])) == Ok(Fired(0, 0))
  {
    var n := Small();
    var w := Word([Synapse(1, 0), Synapse(3, 0), Synapse(4, 0), Synapse(5, 0), Synapse(6, 0), Synapse(8, 0), Synapse(9, 0), Synapse(14, 0)]);
    assert Undelayed([1, 3, 4, 5, 6, 8, 9, 14]) == w;
    assert |n.synapses| == 16;
    assert Fits(n, w);
    SlotSumAt(n, w, 0, 0);
    assert SumFirst(n, w.synapses, 0, 0, 8) == 8.0;
  }

  /** Offset 16 is outside a table of 16 synapses, whatever the neuron's other parameters and draws. */
  lemma ExposeIndexError(n: Neuron)
    requires n.S0() == 16
    ensures Expose(n, Undelayed([16])) == Err(OffsetOutOfRange)
  {
    assert Undelayed([16]).synapses[0].offset == 16;
  }

  /** Compartments 0, 1, 2 hold synapses 0-9, 10-13 and 14-15; H = 2, G = 2, so H*G = 4. */
  function ThreeCompartments(): Neuron {
    var a := SynapseState(1.0, 0, 0);
    var b := SynapseState(1.0, 0, 1);
    var c := SynapseState(1.0, 0, 2);
    Neuron(2.0, 2.0, 3, 1, 1, [a, a, a, a, a, a, a, a, a, a, b, b, b, b, c, c], false)
  }

  /** Three inputs in compartment 0 are too few for H*G = 4. */
  lemma ContainersSilent()
    ensures Expose(ThreeCompartments(), Undelayed([1, 2, 6])) == Ok(Silent)
  {
    var n := ThreeCompartments();
    var w := Word([Synapse(1, 0), Synapse(2, 0), Synapse(6, 0)]);
    assert Undelayed([1, 2, 6]) == w;
    assert |n.synapses| == 16;
    assert Fits(n, w);
    SlotSumAt(n, w, 0, 0);
    assert SumFirst(n, w.synapses, 0, 0, 3) == 3.0;
    SlotSumAt(n, w, 0, 1);
    assert SumFirst(n, w.synapses, 0, 1, 3) == 0.0;
    SlotSumAt(n, w, 0, 2);
    assert SumFirst(n, w.synapses, 0, 2, 3) == 0.0;
    SlotSumAt(n, w, 1, 0);
    assert SumFirst(n, w.synapses, 1, 0, 3) == 0.0;
    SlotSumAt(n, w, 1, 1);
    assert SumFirst(n, w.synapses, 1, 1, 3) == 0.0;
    SlotSumAt(n, w, 1, 2);
    assert SumFirst(n, w.synapses, 1, 2, 3) == 0.0;
  }

  /** Six inputs in compartment 0 fire there. */
  lemma ContainersFireInFirst()
    ensures Expose(ThreeCompartments(), Undelayed([1, 2, 3, 4, 5, 6])) == Ok(Fired(0, 0))
  {
    var n := ThreeCompartments();
    var w := Word([Synapse(1, 0), Synapse(2, 0), Synapse(3, 0), Synapse(4, 0), Synapse(5, 0), Synapse(6, 0)]);
    assert Undelayed([1, 2, 3, 4, 5, 6]) == w;
    assert |n.synapses| == 16;
    assert Fits(n, w);
    SlotSumAt(n, w, 0, 0);
    assert SumFirst(n, w.synapses, 0, 0, 6) == 6.0;
  }

  /** Four inputs in compartment 1 fire there, after compartment 0 stays below threshold. */
  lemma ContainersFireInSecond()
    ensures Expose(ThreeCompartments(), Undelayed([10, 11, 12, 13])) == Ok(Fired(0, 1))
  {
    var n := ThreeCompartments();
    var w := Word([Synapse(10, 0), Synapse(11, 0), Synapse(12, 0), Synapse(13, 0)]);
    assert Undelayed([10, 11, 12, 13]) == w;
    assert |n.synapses| == 16;
    assert Fits(n, w);
    SlotSumAt(n, w, 0, 0);
    assert SumFirst(n, w.synapses, 0, 0, 4) == 0.0;
    SlotSumAt(n, w, 0, 1);
    assert SumFirst(n, w.synapses, 0, 1, 4) == 4.0;
  }

  /** Compartment 2 holds only two synapses, too few to fire. */
  lemma ContainersSilentInThird()
    ensures Expose(ThreeCompartments(), Undelayed([14, 15])) == Ok(Silent)
  {
    var n := ThreeCompartments();
    var w := Word([Synapse(14, 0), Synapse(15, 0)]);
    assert Undelayed([14, 15]) == w;
    assert |n.synapses| == 16;
    assert Fits(n, w);
    SlotSumAt(n, w, 0, 0);
    assert SumFirst(n, w.synapses, 0, 0, 2) == 0.0;
    SlotSumAt(n, w, 0, 1);
    assert SumFirst(n, w.synapses, 0, 1, 2) == 0.0;
    SlotSumAt(n, w, 0, 2);
    assert SumFirst(n, w.synapses, 0, 2, 2) == 2.0;
    SlotSumAt(n, w, 1, 0);
    assert SumFirst(n, w.synapses, 1, 0, 2) == 0.0;
    SlotSumAt(n, w, 1, 1);
    assert SumFirst(n, w.synapses, 1, 1, 2) == 0.0;
    SlotSumAt(n, w, 1, 2);
    assert SumFirst(n, w.synapses, 1, 2, 2) == 0.0;
  }

  /** Synaptic delays 0, 1, 2 on synapses 0-9, 10-13 and 14-15; D1 = 2, D2 = 3, so five slots. */
  function ThreeDelays(): Neuron {
    var a := SynapseState(1.0, 0, 0);
    var b := SynapseState(1.0, 1, 0);
    var c := SynapseState(1.0, 2, 0);
    Neuron(2.0, 2.0, 1, 2, 3, [a, a, a, a, a, a, a, a, a, a, b, b, b, b, c, c], false)
  }

  /** Three undelayed inputs land in slot 0 and stay below H*G = 4. */
  lemma DelaysSilent()
    ensures Expose(ThreeDelays(), Word([Synapse(1, 0), Synapse(2, 0), Synapse(6, 0)])) == Ok(Silent)
  {
    var n := ThreeDelays();
    var w := Word([Synapse(1, 0), Synapse(2, 0), Synapse(6, 0)]);
    assert |n.synapses| == 16;
    assert Fits(n, w);
    SlotSumAt(n, w, 0, 0);
    assert SumFirst(n, w.synapses, 0, 0, 3) == 3.0;
    SlotSumAt(n, w, 1, 0);
    assert SumFirst(n, w.synapses, 1, 0, 3) == 0.0;
    SlotSumAt(n, w, 2, 0);
    assert SumFirst(n, w.synapses, 2, 0, 3) == 0.0;
    SlotSumAt(n, w, 3, 0);
    assert SumFirst(n, w.synapses, 3, 0, 3) == 0.0;
    SlotSumAt(n, w, 4, 0);
    assert SumFirst(n, w.synapses, 4, 0, 3) == 0.0;
  }

  /** Six undelayed inputs fire in slot 0. */
  lemma DelaysFireInSlotZero()
    ensures Expose(ThreeDelays(), Word([Synapse(1, 0), Synapse(2, 0), Synapse(3, 0), Synapse(4, 0), Synapse(5, 0), Synapse(6, 0)])) == Ok(Fired(0, 0))
  {
    var n := ThreeDelays();
    var w := Word([Synapse(1, 0), Synapse(2, 0), Synapse(3, 0), Synapse(4, 0), Synapse(5, 0), Synapse(6, 0)]);
    assert |n.synapses| == 16;
    assert Fits(n, w);
    SlotSumAt(n, w, 0, 0);
    assert SumFirst(n, w.synapses, 0, 0, 6) == 6.0;
  }

  /** Four inputs delayed by one fire in slot 1; the two undelayed ones in slot 0 do not. */
  lemma DelaysFireInSlotOne()
    ensures Expose(ThreeDelays(), Word([Synapse(1, 1), Synapse(2, 1), Synapse(3, 1), Synapse(4, 1), Synapse(5, 0), Synapse(6, 0)])) == Ok(Fired(1, 0))
  {
    var n := ThreeDelays();
    var w := Word([Synapse(1, 1), Synapse(2, 1), Synapse(3, 1), Synapse(4, 1), Synapse(5, 0), Synapse(6, 0)]);
    assert |n.synapses| == 16;
    assert Fits(n, w);
    SlotSumAt(n, w, 0, 0);
    assert SumFirst(n, w.synapses, 0, 0, 6) == 2.0;
    SlotSumAt(n, w, 1, 0);
    assert SumFirst(n, w.synapses, 1, 0, 6) == 4.0;
  }

  /** Three inputs in slot 0 and three in slot 1: neither slot reaches the threshold. */
  lemma DelaysSilentWhenSplit()
    ensures Expose(ThreeDelays(), Word([Synapse(1, 0), Synapse(2, 0), Synapse(3, 0), Synapse(4, 1), Synapse(5, 1), Synapse(6, 1)])) == Ok(Silent)
  {
    var n := ThreeDelays();
    var w := Word([Synapse(1, 0), Synapse(2, 0), Synapse(3, 0), Synapse(4, 1), Synapse(5, 1), Synapse(6, 1)]);
    assert |n.synapses| == 16;
    assert Fits(n, w);
    SlotSumAt(n, w, 0, 0);
    assert SumFirst(n, w.synapses, 0, 0, 6) == 3.0;
    SlotSumAt(n, w, 1, 0);
    assert SumFirst(n, w.synapses, 1, 0, 6) == 3.0;
    SlotSumAt(n, w, 2, 0);
    assert SumFirst(n, w.synapses, 2, 0, 6) == 0.0;
    SlotSumAt(n, w, 3, 0);
    assert SumFirst(n, w.synapses, 3, 0, 6) == 0.0;
    SlotSumAt(n, w, 4, 0);
    assert SumFirst(n, w.synapses, 4, 0, 6) == 0.0;
  }

  /** Synapse delay 1 plus input delay 1 puts four inputs into slot 2. */
  lemma DelaysFireInSlotTwo()
    ensures Expose(ThreeDelays(), Word([Synapse(10, 1), Synapse(11, 1), Synapse(12, 1), Synapse(13, 1)])) == Ok(Fired(2, 0))
  {
    var n := ThreeDelays();
    var w := Word([Synapse(10, 1), Synapse(11, 1), Synapse(12, 1), Synapse(13, 1)]);
    assert |n.synapses| == 16;
    assert Fits(n, w);
    SlotSumAt(n, w, 0, 0);
    assert SumFirst(n, w.synapses, 0, 0, 4) == 0.0;
    SlotSumAt(n, w, 1, 0);
    assert SumFirst(n, w.synapses, 1, 0, 4) == 0.0;
    SlotSumAt(n, w, 2, 0);
    assert SumFirst(n, w.synapses, 2, 0, 4) == 4.0;
  }

  /** Two inputs in slot 1 and two in slot 2 stay silent. */
  lemma DelaysSilentAcrossSlots()
    ensures Expose(ThreeDelays(), Word([Synapse(12, 0), Synapse(13, 0), Synapse(14, 0), Synapse(15, 0)])) == Ok(Silent)
  {
    var n := ThreeDelays();
    var w := Word([Synapse(12, 0), Synapse(13, 0), Synapse(14, 0), Synapse(15, 0)]);
    assert |n.synapses| == 16;
    assert Fits(n, w);
    SlotSumAt(n, w, 0, 0);
    assert SumFirst(n, w.synapses, 0, 0, 4) == 0.0;
    SlotSumAt(n, w, 1, 0);
    assert SumFirst(n, w.synapses, 1, 0, 4) == 2.0;
    SlotSumAt(n, w, 2, 0);
    assert SumFirst(n, w.synapses, 2, 0, 4) == 2.0;
    SlotSumAt(n, w, 3, 0);
    assert SumFirst(n, w.synapses, 3, 0, 4) == 0.0;
    SlotSumAt(n, w, 4, 0);
    assert SumFirst(n, w.synapses, 4, 0, 4) == 0.0;
  }

  /** The first training word and the table after training with it: synapses 1, 6, 9, 14 raised. */
  function WordA(): Word { Word([Synapse(1, 0), Synapse(6, 0), Synapse(9, 0), Synapse(14, 0)]) }

  function TableA(): seq<SynapseState> {
    Strengths({1, 6, 9, 14})
  }

  /** In training mode the threshold is H = 4, which the four unit inputs of WordA reach in slot (0, 0). */
  lemma FirstWordFires()
    ensures Expose(Neuron(4.0, 2.0, 1, 1, 1, Plain16(), true), WordA()) == Ok(Fired(0, 0))
  {
    var n := Neuron(4.0, 2.0, 1, 1, 1, Plain16(), true);
    var w := Word([Synapse(1, 0), Synapse(6, 0), Synapse(9, 0), Synapse(14, 0)]);
    assert WordA() == w;
    assert |n.synapses| == 16;
    assert Fits(n, w);
    SlotSumAt(n, w, 0, 0);
    assert SumFirst(n, w.synapses, 0, 0, 4) == 4.0;
  }


  /**
   A training step that fires at (d, c) on a word with distinct offsets yields the
   table that raises to G the word's synapses in (d, c) and keeps every other row.
   */
  lemma TrainedTable(n: Neuron, w: Word, d: nat, c: nat, table: seq<SynapseState>)
    requires n.training && Fits(n, w) && DistinctOffsets(w.synapses)
    requires Expose(n, w) == Ok(Fired(d, c))
    requires |table| == n.S0()
    requires forall j :: 0 <= j < n.S0() ==>
               table[j] == n.synapses[j].(strength := if SomeInSlot(n, w.synapses, d, c, j) then n.G else n.synapses[j].strength)
    ensures Train(n, w) == Ok(TrainStep(true, n.(synapses := table)))
  {
    TrainDistinct(n, w, d, c);
    assert Train(n, w).value.neuron.synapses == table;
  }

  /** Training with WordA fires and raises exactly its four synapses to G. */
  lemma TrainFirstWord()
    ensures Train(StartTraining(Small()), WordA()) == Ok(TrainStep(true, Neuron(4.0, 2.0, 1, 1, 1, TableA(), true)))
  {
    var n := Neuron(4.0, 2.0, 1, 1, 1, Plain16(), true);
    assert StartTraining(Small()) == n;
    var w := WordA();
    FirstWordFires();
    forall j | 0 <= j < 16
      ensures TableA()[j] == n.synapses[j].(strength := if SomeInSlot(n, w.synapses, 0, 0, j) then n.G else n.synapses[j].strength)
    {
      if j in {1, 6, 9, 14} {
        var k := if j == 1 then 0 else if j == 6 then 1 else if j == 9 then 2 else 3;
        assert w.synapses[k].offset == j && InSlot(n, w.synapses[k], 0, 0);
      } else {
        assert forall k :: 0 <= k < 4 ==> w.synapses[k].offset in {1, 6, 9, 14};
      }
    }
    TrainedTable(n, w, 0, 0, TableA());
  }

  /** The second training word; after it, synapses 1, 3, 4, 6, 9, 13, 14 are raised. */
  function WordB(): Word { Word([Synapse(3, 0), Synapse(4, 0), Synapse(9, 0), Synapse(13, 0)]) }

  function TableB(): seq<SynapseState> {
    Strengths({1, 3, 4, 6, 9, 13, 14})
  }

  /** After WordA, the inputs of WordB sum to 1 + 1 + 2 + 1 = 5, above the training threshold 4. */
  lemma SecondWordFires()
    ensures Expose(Neuron(4.0, 2.0, 1, 1, 1, TableA(), true), WordB()) == Ok(Fired(0, 0))
  {
    var n := Neuron(4.0, 2.0, 1, 1, 1, TableA(), true);
    var w := Word([Synapse(3, 0), Synapse(4, 0), Synapse(9, 0), Synapse(13, 0)]);
    assert WordB() == w;
    assert |n.synapses| == 16;
    assert Fits(n, w);
    SlotSumAt(n, w, 0, 0);
    assert SumFirst(n, w.synapses, 0, 0, 4) == 5.0;
  }


  /** Training with WordB fires and raises its four synapses; synapse 9 was already at G. */
  lemma TrainSecondWord()
    ensures Train(Neuron(4.0, 2.0, 1, 1, 1, TableA(), true), WordB())
              == Ok(TrainStep(true, Neuron(4.0, 2.0, 1, 1, 1, TableB(), true)))
  {
    var n := Neuron(4.0, 2.0, 1, 1, 1, TableA(), true);
    var w := WordB();
    SecondWordFires();
    forall j | 0 <= j < 16
      ensures TableB()[j] == n.synapses[j].(strength := if SomeInSlot(n, w.synapses, 0, 0, j) then n.G else n.synapses[j].strength)
    {
      if j in {3, 4, 9, 13} {
        var k := if j == 3 then 0 else if j == 4 then 1 else if j == 9 then 2 else 3;
        assert w.synapses[k].offset == j && InSlot(n, w.synapses[k], 0, 0);
      } else {
        assert forall k :: 0 <= k < 4 ==> w.synapses[k].offset in {3, 4, 9, 13};
      }
    }
    TrainedTable(n, w, 0, 0, TableB());
  }

  /** The neuron Alice leaves behind: synapses 1, 3, 4, 6, 9, 13, 14 at G, recognition mode. */
  function Trained(): Neuron {
    Neuron(4.0, 2.0, 1, 1, 1, TableB(), false)
  }

  /** Training the second word alone, from the table WordA left, ends in TableB. */
  lemma TrainAllSecondWord()
    ensures TrainAll(Neuron(4.0, 2.0, 1, 1, 1, TableA(), true), [WordB()])
              == Ok(Neuron(4.0, 2.0, 1, 1, 1, TableB(), true))
  {
    TrainSecondWord();
    assert [WordB()][1..] == [];
  }

  /** The training fold over WordA then WordB, from a fresh neuron in training mode. */
  lemma TrainAllTwoWords()
    ensures TrainAll(StartTraining(Small()), [WordA(), WordB()]) == Ok(Neuron(4.0, 2.0, 1, 1, 1, TableB(), true))
  {
    TrainFirstWord();
    TrainAllSecondWord();
    assert [WordA(), WordB()][1..] == [WordB()];
  }

  /** Alice's session over WordA then WordB: both fire, and the neuron ends as Trained(). */
  lemma AliceTrainsTwoWords()
    ensures AliceTrain(Small(), WordSet([WordA(), WordB()], [0, 0])) == Ok(Trained())
  {
    TrainAllTwoWords();
  }

  /** After training, inputs 2, 6, 12, 14 sum to 6, below H*G = 8. */
  lemma TrainedSilentOnD()
    ensures Expose(Trained(), Undelayed([2, 6, 12, 14])) == Ok(Silent)
  {
    var n := Trained();
    var w := Word([Synapse(2, 0), Synapse(6, 0), Synapse(12, 0), Synapse(14, 0)]);
    assert Undelayed([2, 6, 12, 14]) == w;
    assert |n.synapses| == 16;
    assert Fits(n, w);
    SlotSumAt(n, w, 0, 0);
    assert SumFirst(n, w.synapses, 0, 0, 4) == 6.0;
    SlotSumAt(n, w, 1, 0);
    assert SumFirst(n, w.synapses, 1, 0, 4) == 0.0;
  }

  /** After training, inputs 3, 7, 9, 13 sum to 7, below H*G = 8. */
  lemma TrainedSilentOnE()
    ensures Expose(Trained(), Undelayed([3, 7, 9, 13])) == Ok(Silent)
  {
    var n := Trained();
    var w := Word([Synapse(3, 0), Synapse(7, 0), Synapse(9, 0), Synapse(13, 0)]);
    assert Undelayed([3, 7, 9, 13]) == w;
    assert |n.synapses| == 16;
    assert Fits(n, w);
    SlotSumAt(n, w, 0, 0);
    assert SumFirst(n, w.synapses, 0, 0, 4) == 7.0;
    SlotSumAt(n, w, 1, 0);
    assert SumFirst(n, w.synapses, 1, 0, 4) == 0.0;
  }

  /** After training, inputs 1, 4, 9, 14 were all raised and fire, though the word was never trained. */
  lemma TrainedFalseAlarm()
    ensures Expose(Trained(), Undelayed([1, 4, 9, 14])) == Ok(Fired(0, 0))
  {
    var n := Trained();
    var w := Word([Synapse(1, 0), Synapse(4, 0), Synapse(9, 0), Synapse(14, 0)]);
    assert Undelayed([1, 4, 9, 14]) == w;
    assert |n.synapses| == 16;
    assert Fits(n, w);
    SlotSumAt(n, w, 0, 0);
    assert SumFirst(n, w.synapses, 0, 0, 4) == 8.0;
  }

  /** After training, the four raised synapses of WordA reach H*G = 8. */
  lemma TrainedRecallsA()
    ensures Expose(Trained(), WordA()) == Ok(Fired(0, 0))
  {
    var n := Trained();
    var w := Word([Synapse(1, 0), Synapse(6, 0), Synapse(9, 0), Synapse(14, 0)]);
    assert WordA() == w;
    assert |n.synapses| == 16;
    assert Fits(n, w);
    SlotSumAt(n, w, 0, 0);
    assert SumFirst(n, w.synapses, 0, 0, 4) == 8.0;
  }

  /** After training, the four raised synapses of WordB reach H*G = 8. */
  lemma TrainedRecallsB()
    ensures Expose(Trained(), WordB()) == Ok(Fired(0, 0))
  {
    var n := Trained();
    var w := Word([Synapse(3, 0), Synapse(4, 0), Synapse(9, 0), Synapse(13, 0)]);
    assert WordB() == w;
    assert |n.synapses| == 16;
    assert Fits(n, w);
    SlotSumAt(n, w, 0, 0);
    assert SumFirst(n, w.synapses, 0, 0, 4) == 8.0;
  }

  /** Both training words fire on the trained neuron. */
  lemma TallyTrainingWords()
    ensures TallyWords(Trained(), [WordA(), WordB()]) == Ok(Tally(2, 0))
  {
    TrainedRecallsA();
    TrainedRecallsB();
    var train := [WordA(), WordB()];
    assert train[..1] == [WordA()] && train[..1][..0] == [];
    assert TallyWords(Trained(), train[..1]) == Ok(Tally(1, 0));
  }

  /** Of the three test words only the false alarm fires. */
  lemma TallyTestWords()
    ensures TallyWords(Trained(), [Undelayed([2, 6, 12, 14]), Undelayed([3, 7, 9, 13]), Undelayed([1, 4, 9, 14])])
              == Ok(Tally(1, 2))
  {
    TrainedSilentOnD();
    TrainedSilentOnE();
    TrainedFalseAlarm();
    var test := [Undelayed([2, 6, 12, 14]), Undelayed([3, 7, 9, 13]), Undelayed([1, 4, 9, 14])];
    assert test[..2][..1] == [test[0]] && test[..2][..1][..0] == [];
    assert TallyWords(Trained(), test[..2][..1]) == Ok(Tally(0, 1));
    assert TallyWords(Trained(), test[..2]) == Ok(Tally(0, 2));
  }

  /** Bob's counts for the trained neuron: both training words recalled, one false alarm among three. */
  lemma BobCountsTwoWords()
    ensures BobTest(Trained(), WordSet([WordA(), WordB()], [0, 0]),
                    WordSet([Undelayed([2, 6, 12, 14]), Undelayed([3, 7, 9, 13]), Undelayed([1, 4, 9, 14])], [0, 0, 0]))
              == Ok(Counts(2, 0, 1, 2))
  {
    TallyTrainingWords();
    TallyTestWords();
  }

  /** The trial row for those counts: every training word learned, a false alarm rate of one in three. */
  lemma MetricsTwoWords()
    ensures Metrics(Counts(2, 0, 1, 2), 2, 3) == Ok(Trial(1.0, 1.0 / 3.0, FalseAlarmBound(2, 1.0 / 3.0)))
  {
  }
}

=== FILE: words.dfy ===
/**
 Input patterns of the Cognon neuron: a Word is the list of input synapses that
 fired in one presentation, each with the delay its signal carries; a WordSet is
 a batch of randomly generated words. The random draws are inputs of the model.
 */
module Words {
  import opened Results

  /** An input line (offset into the neuron's synapse table) and the delay of its signal. */
  datatype Synapse = Synapse(offset: nat, delay: int)

  /** The synapses that fired in one presentation, in the order they were given. */
  datatype Word = Word(synapses: seq<Synapse>)

  /** A batch of words plus one learned delay slot per word (0 until trained). */
  datatype WordSet = WordSet(words: seq<Word>, delays: seq<int>)

  /** One word's random draws: the sampled offsets and the delay drawn for each. */
  datatype WordDraw = WordDraw(offsets: seq<nat>, delays: seq<nat>)

  /** The smallest offset among the pairs, which is what sorting the pairs puts first. */
  function MinOffset(pairs: seq<(int, int)>): (m: int)
    requires |pairs| > 0
    ensures forall k :: 0 <= k < |pairs| ==> m <= pairs[k].0
    ensures exists k :: 0 <= k < |pairs| && m == pairs[k].0
  {
    if |pairs| == 1 then pairs[0].0
    else
      var rest := MinOffset(pairs[1..]);
      assert forall k :: 1 <= k < |pairs| ==> pairs[k] == pairs[1..][k - 1];
      if pairs[0].0 <= rest then pairs[0].0 else rest
  }

  /** Word construction: rejects a negative offset, otherwise keeps the pairs as they are. */
  function MakeWord(pairs: seq<(int, int)>): (r: Result<Word>)
    ensures r.Err? <==> exists k :: 0 <= k < |pairs| && pairs[k].0 < 0
    ensures r.Err? ==> r.error == NegativeOffset
    ensures r.Ok? ==> |r.value.synapses| == |pairs|
    ensures r.Ok? ==> forall k :: 0 <= k < |pairs| ==>
                        r.value.synapses[k].offset == pairs[k].0 && r.value.synapses[k].delay == pairs[k].1
  {
    if |pairs| > 0 && MinOffset(pairs) < 0 then Err(NegativeOffset)
    else Ok(Word(seq(|pairs|, k requires 0 <= k < |pairs| => Synapse(pairs[k].0, pairs[k].1))))
  }

  /** The (offset, delay) pairs a word holds. */
  function Pairs(w: Word): (pairs: seq<(int, int)>)
    ensures |pairs| == |w.synapses|
  {
    seq(|w.synapses|, k requires 0 <= k < |w.synapses| => (w.synapses[k].offset as int, w.synapses[k].delay))
  }

  /** Constructing a word from pairs and reading its pairs back are inverse to each other. */
  lemma WordRoundTrip(w: Word, pairs: seq<(int, int)>)
    ensures MakeWord(Pairs(w)) == Ok(w)
    ensures MakeWord(pairs).Ok? ==> Pairs(MakeWord(pairs).value) == pairs
  {
    var r := MakeWord(Pairs(w));
    assert r.Ok?;
    assert r.value.synapses == w.synapses;
  }

  /** No two synapses of the list share an offset. */
  predicate DistinctOffsets(syns: seq<Synapse>) {
    forall k1, k2 :: 0 <= k1 < k2 < |syns| ==> syns[k1].offset != syns[k2].offset
  }

  /** The shape every generated word has. */
  predicate WellShaped(w: Word, wordLength: nat, numDelays: nat, numActive: nat) {
    && |w.synapses| == numActive
    && DistinctOffsets(w.synapses)
    && forall k :: 0 <= k < |w.synapses| ==>
         w.synapses[k].offset < wordLength && 0 <= w.synapses[k].delay < numDelays
  }

  /** What random.sample and randint deliver: distinct offsets below wordLength, delays below numDelays. */
  predicate ValidDraw(d: WordDraw, wordLength: nat, numDelays: nat, numActive: nat) {
    && |d.offsets| == numActive
    && |d.delays| == numActive
    && (forall k1, k2 :: 0 <= k1 < k2 < numActive ==> d.offsets[k1] != d.offsets[k2])
    && (forall k :: 0 <= k < numActive ==> d.offsets[k] < wordLength && d.delays[k] < numDelays)
  }

  /** Distinct naturals below b number at most b: random.sample cannot pick more than it samples from. */
  lemma {:induction false} DistinctBelow(xs: seq<nat>, b: nat)
    requires forall k1, k2 :: 0 <= k1 < k2 < |xs| ==> xs[k1] != xs[k2]
    requires forall k :: 0 <= k < |xs| ==> xs[k] < b
    ensures |xs| <= b
    decreases b
  {
    if |xs| > 0 {
      assert xs[0] < b;
      if i :| 0 <= i < |xs| && xs[i] == b - 1 {
        var ys := xs[..i] + xs[i + 1..];
        assert forall k :: 0 <= k < |ys| ==> ys[k] == if k < i then xs[k] else xs[k + 1];
        DistinctBelow(ys, b - 1);
      } else {
        DistinctBelow(xs, b - 1);
      }
    }
  }

  /**
   A draw exists exactly when random.sample can pick numActive of wordLength
   offsets and, if it picks any, randint has a delay slot to draw from.
   */
  lemma DrawExists(wordLength: nat, numDelays: nat, numActive: nat)
    ensures (exists d :: ValidDraw(d, wordLength, numDelays, numActive))
            <==> numActive <= wordLength && (numActive > 0 ==> numDelays >= 1)
  {
    if d :| ValidDraw(d, wordLength, numDelays, numActive) {
      DistinctBelow(d.offsets, wordLength);
      if numActive > 0 {
        assert d.delays[0] < numDelays;
      }
    }
    if numActive <= wordLength && (numActive > 0 ==> numDelays >= 1) {
      var d := WordDraw(seq(numActive, k => k), seq(numActive, _ => 0));
      assert ValidDraw(d, wordLength, numDelays, numActive);
    }
  }

  /** The offsets zipped with their delays; like Python's zip it stops at the shorter list. */
  function Zip(d: WordDraw): (pairs: seq<(int, int)>)
    ensures |pairs| <= |d.offsets| && |pairs| <= |d.delays|
    ensures |pairs| == |d.offsets| || |pairs| == |d.delays|
    ensures forall k :: 0 <= k < |pairs| ==> pairs[k] == (d.offsets[k] as int, d.delays[k] as int)
  {
    var n := if |d.offsets| <= |d.delays| then |d.offsets| else |d.delays|;
    seq(n, k requires 0 <= k < n => (d.offsets[k] as int, d.delays[k] as int))
  }

  /** The word built from one draw; its offsets are naturals, so construction succeeds. */
  function DrawnWord(d: WordDraw): (w: Word)
    ensures |w.synapses| == |Zip(d)|
    ensures forall k :: 0 <= k < |w.synapses| ==> w.synapses[k] == Synapse(d.offsets[k], d.delays[k])
  {
    var r := MakeWord(Zip(d));
    assert r.Ok?;
    r.value
  }

  /** A WordSet of numWords words drawn from the given per-word draws. */
  function MakeWordSet(numWords: nat, wordLength: nat, numDelays: nat, numActive: nat,
                       draws: seq<WordDraw>): (ws: WordSet)
    requires numWords > 0 ==> numDelays >= 1
    requires |draws| == numWords
    requires forall i :: 0 <= i < numWords ==> ValidDraw(draws[i], wordLength, numDelays, numActive)
    ensures |ws.words| == numWords && |ws.delays| == numWords
    ensures forall i :: 0 <= i < numWords ==> ws.delays[i] == 0
    ensures forall i :: 0 <= i < numWords ==> WellShaped(ws.words[i], wordLength, numDelays, numActive)
    ensures forall i :: 0 <= i < numWords ==> ws.words[i] == DrawnWord(draws[i])
  {
    var ws := WordSet(seq(numWords, i requires 0 <= i < numWords => DrawnWord(draws[i])), seq(numWords, _ => 0));
    forall i | 0 <= i < numWords
      ensures WellShaped(ws.words[i], wordLength, numDelays, numActive)
    {
      assert ValidDraw(draws[i], wordLength, numDelays, numActive);
    }
    ws
  }
}
